=== FILE: README.md ===
# guiadev interview-question catalogue — a Dafny model

guiadev is a small web application that serves interview questions. Questions
are grouped by seniority, technology stack and category. It has three parts:

- an Express server (`server.js`) over one database table;
- a public page (`public/js/app.js`) where a candidate picks a seniority and a
  stack, reads the questions and asks for a model answer or for feedback;
- an admin panel (`public/js/admin.js`) where an administrator lists, filters
  and edits the questions, and imports batches of them from CSV text or from a
  one-question-per-line shorthand.

This project models the logic of those three files as pure Dafny functions and
proves what that logic guarantees. The database, the browser and the language
model are not modelled. What they return is an input to the model.

Modules, one per concern:

| module | file | what it models |
|---|---|---|
| `Wrappers` | `wrappers.dfy` | `Option` and `Result` |
| `Text` | `text.dfy` | JavaScript `trim`, `split` on one character, `join`, `replace(/c/g, …)` |
| `Numbers` | `numbers.dfy` | `parseInt` on a string; decimal rendering of an integer |
| `Collections` | `collections.dfy` | filtering, filter-map, `[...new Set(xs)]`, subsequences |
| `Records` | `records.dfy` | the imported record, the shorthand defaults, the stored row |
| `Csv` | `csv.dfy` | `parseCSVLine` (quote-aware tokenizer) and `parseCSV` |
| `Shorthand` | `shorthand.dfy` | `parseForm` (`sen\|stack\|cat\|goal\|question` lines or plain lines) |
| `Preview` | `preview.dfy` | `previewData`, `displayPreview`, `updateStatistics`, `applyFilters` |
| `BulkReport` | `bulk_report.dfy` | what `submitBulkImport` shows for the server's answer |
| `Grouping` | `grouping.dfy` | grouping rows into categories, both as intended and as written |
| `Server` | `server.dfy` | the admin password, `verifyAdmin`, `/verify`, `/add`, `/edit`, `/stacks`, `/questions`, `/random-question` |
| `Client` | `client.dfy` | `loadInitialData`, `handleSeniorityClick`, `createFilterButtons`, answer and feedback formatting |

Modelling choices:

- A JSON request body is a `map<string, Value>`. A key that is absent is
  `undefined`. Truthiness follows JavaScript: `null`, `false`, `0`, `""` and
  `undefined` are falsy. Numbers are `real`; `NaN` is not represented.
- `parseInt` follows ECMAScript: leading white space, an optional sign, a `0x`
  prefix meaning hexadecimal, then the longest digit prefix. `NaN` is `None`,
  and `parseInt(x) || 0` maps `None` to 0. A missing sixth CSV column is
  `parseInt(undefined)`, which reads the text `"undefined"` and gives 0.
- A database query or a fetch that reports an error is the `None` case of its
  input.
- `Math.random()` is a `real` parameter `draw` with `0 <= draw < 1`.
- Strings are sequences of characters. Lengths count characters, which
  matches JavaScript's count of UTF-16 code units for text in the Basic
  Multilingual Plane.

Two behaviours of the importers are worth knowing:

- The shorthand format numbers records by line index plus one, and blank lines
  keep their index, so `"a\n\nb"` gives positions 1 and 3
  (`Shorthand.BlankLinesCounted`).
- Neither importer checks for empty required fields. A CSV line `;;;;` becomes
  a record whose five text fields are all empty (`Csv.EmptyFieldsAccepted`).

## Model

| member | source | states |
|---|---|---|
| Csv.ParseCSVLine | public/js/admin.js:538-570 | the line gives one field per separator outside quotes, plus one; every field is trimmed |
| Csv.ParseCSVLineLoop | public/js/admin.js:538-570 | the character loop with its `inQuotes`/`quoteChar` state and the skip over a doubled quote computes exactly the fields of the recursive tokenizer |
| Csv.OutsideSeparatorsAtMostCount | public/js/admin.js:560-562 | a field break happens only at a separator character, so there are at most as many breaks as separators in the line |
| Csv.QuotedLineRoundTrip | public/js/admin.js:548-559 | when values are quoted with `"` or `'` (inner quotes doubled) and joined by a non-quote separator, tokenizing gives back the trimmed values: quoting is the inverse of the tokenizer |
| Csv.ScanQuotedField | public/js/admin.js:548-559 | a quoted field, with its quote characters doubled inside, contributes exactly its value to the current field |
| Csv.UnterminatedQuote | public/js/admin.js:548-568 | an opened quote that is never closed swallows the rest of the line, separators included, into the last field |
| Csv.QuoteFreeLine | public/js/admin.js:538-570 | a line without quote characters tokenizes as a plain split on the separator, each part trimmed |
| Text.JoinSplit | public/js/admin.js:509 | joining the pieces of a split with the separator gives back the text: splitting the content into lines loses and adds nothing |
| Csv.SeparatorFromFirstLine | public/js/admin.js:509-514 | the batch separator is `;` exactly when the first line of the trimmed content contains `;`, and `,` otherwise |
| Csv.CsvLine | public/js/admin.js:517-532 | a line gives a record exactly when it is not blank and has at least four separators outside quotes; the record's text fields are trimmed |
| Csv.OrderPositionColumn | public/js/admin.js:530 | the order position is 0 when the sixth column is missing or not a number, and is the number when the column is a decimal numeral |
| Csv.CsvRecords | public/js/admin.js:516-533 | every record comes from some line, and every accepted line's record is in the result |
| Csv.CsvRecordsAppend | public/js/admin.js:516-533 | lines contribute independently and in order: the records of `a + b` are those of `a` followed by those of `b` |
| Csv.CsvAllAccepted | public/js/admin.js:516-533 | when every line is accepted, the i-th record is built from the i-th line |
| Csv.ParseCSVBlank | public/js/admin.js:508-536 | blank content gives no records and raises no error |
| Csv.EmptyFieldsAccepted | public/js/admin.js:523-531 | `;;;;` is accepted as a record with five empty text fields and position 0 |
| Shorthand.FormLineCases | public/js/admin.js:586-613 | a blank line gives nothing; a pipe-free line takes the batch defaults and the trimmed line as its question; a line with a pipe gives a record exactly when it has at least four pipes |
| Shorthand.PipeLineRoundTrip | public/js/admin.js:591-601 | five or more trimmed, pipe-free fields joined by `\|` read back as a record of the first five fields |
| Shorthand.ShortPipeLineDropped | public/js/admin.js:591-602 | a line with one to three pipes is dropped silently |
| Shorthand.ParseForm | public/js/admin.js:579-583 | the result is an error exactly when the text is blank, and then it is the "Digite pelo menos uma pergunta" message |
| Shorthand.FormRecordsComplete | public/js/admin.js:586-614 | every line that gives a record has that record in the result |
| Shorthand.FormRecordsPositions | public/js/admin.js:586-614 | each record's order position p is between 1 and the number of lines, and line p−1 gives exactly that record; positions strictly increase, so the records keep line order |
| Shorthand.ParseFormPositions | public/js/admin.js:572-617 | the same position and order facts for the lines of the trimmed text that `parseForm` splits |
| Shorthand.BlankLinesCounted | public/js/admin.js:583-611 | `"a\n\nb"` gives positions 1 and 3, because blank lines keep their index |
| Preview.Parsed | public/js/admin.js:623-631 | blank CSV text fails with "Cole o conteúdo CSV ou carregue um arquivo"; other CSV text gives the records of the CSV parser; form text gives exactly what the shorthand parser gives; any other import type gives no records |
| Preview.PreviewData | public/js/admin.js:619-637 | the preview succeeds exactly when parsing succeeds with at least one record; the parse error is passed on, and an empty parse gives "Nenhuma pergunta válida encontrada" |
| Preview.PreviewErrors | public/js/admin.js:623-635 | the error each failing input produces: blank CSV, blank form text, another import type, CSV content with no usable line |
| Preview.PreviewDialog | public/js/admin.js:637-644 | the import button is disabled exactly when the preview failed; a success stores the records (at least one) and shows "Preview gerado com sucesso!"; a failure shows the error and keeps the records stored earlier |
| Preview.PreviewSummary | public/js/admin.js:660-663 | the summary counts the records and the distinct stacks and categories among them; each distinct count is at most the record count and at least 1 when there are records |
| Preview.PreviewCell | public/js/admin.js:656 | a question of at most 50 characters is shown whole; a longer one shows its first 50 characters followed by `...` |
| Preview.UpdateStatistics | public/js/admin.js:215-224 | the totals are the row count, the active count (equal to the total exactly when every row is active), and the numbers of distinct stacks and categories |
| Preview.ApplyFilters | public/js/admin.js:238-248 | the result is a subsequence of the rows in which every row matches each non-empty filter; status `"true"` keeps only active rows and `"false"` only inactive ones |
| Preview.ApplyFiltersMembers | public/js/admin.js:243-248 | a row is shown exactly when it is among the rows and matches the filters |
| Preview.ApplyFiltersCounts | public/js/admin.js:243-248 | a matching row is shown as many times as it occurs in the list, and a non-matching one not at all: repeated rows are kept |
| Preview.NoFiltersShowAll | public/js/admin.js:244-247 | with all three filters empty every row is shown, in order |
| Preview.ApplyFiltersIdempotent | public/js/admin.js:238-248 | filtering the filtered rows again changes nothing |
| Preview.UnknownStatusShowsNothing | public/js/admin.js:246 | a status filter other than `""`, `"true"` and `"false"` hides every row |
| BulkReport.ErrorLine | public/js/admin.js:713 | an error line starts with "Linha ", then the error's batch index plus one, which reads back as a number, and ends with ": " and the error's reason |
| BulkReport.ListedErrors | public/js/admin.js:713 | the first min(5, n) errors are listed, in order, each by its own line |
| BulkReport.Overflow | public/js/admin.js:714 | the overflow text is present exactly when there are more than five errors, and then counts the errors not listed |
| BulkReport.OverflowCount | public/js/admin.js:714 | the number in the overflow text reads back as the count of unlisted errors |
| BulkReport.ErrorBox | public/js/admin.js:708-717 | the error box appears exactly when the batch reported errors; its text is the "Erros encontrados:" header, the listed error lines separated by `<br>`, then the overflow count |
| BulkReport.Banner | public/js/admin.js:700-705 | the banner appears exactly when at least one record was stored, with the "✅ stored/total perguntas importadas com sucesso!" text; it is a warning exactly when some records failed, and never an error |
| BulkReport.BannerCount | public/js/admin.js:702 | the banner text begins with the stored count, which reads back as a number |
| BulkReport.FailureText | public/js/admin.js:692-695 | a failed request shows the server's non-empty `error` text, or "Erro na importação" when it has none; a thrown error shows its message; both after the "Erro durante a importação: " prefix |
| BulkReport.SubmitBulkImport | public/js/admin.js:671-740 | nothing is sent when there are no records; a failed request replaces the messages on screen by the error; a stored record replaces them by the banner, while with nothing stored the earlier messages stay; the error box is added last when there were errors; the list reloads exactly when something was stored |
| BulkReport.SubmitAgainstThisServer | public/js/admin.js:683-730 | with records to send, a request that throws (as reading this server's 404 page as JSON does) shows only "Erro durante a importação: " and the error, and reloads nothing |
| BulkReport.SilentWhenNothingHappened | public/js/admin.js:700-727 | an answer with nothing stored and no errors adds nothing: the messages already on screen stay as they were, and nothing reloads |
| BulkReport.FailedBatchKeepsPreview | public/js/admin.js:700-717 | with nothing stored but some errors, the earlier messages (the preview's, say) stay and the error box follows them |
| Grouping.GroupsOf | server.js:69-85 | the group titles are the distinct categories of the rows, in first-occurrence order |
| Grouping.GroupedIsGroupsOf | server.js:70-80 | the row-by-row grouping builds, for each distinct category, its first row's goal and all its questions in row order |
| Grouping.TotalItemsIsRowCount | server.js:71-80 | the groups hold exactly as many questions as there are rows |
| Grouping.RowInItsGroup | server.js:71-80 | every row's question is in its category's group, that group exists, and no two groups share a title |
| Grouping.AsWrittenThrowsIff | server.js:70-80 | with a plain object as the map, the grouping throws exactly when some row's category is a key inherited from `Object.prototype`, and otherwise equals the intended grouping |
| Server.AdminPassword | server.js:35 | the password is the environment variable when it is set and non-empty, and "admin123" otherwise; it is never empty |
| Server.VerifyAdmin | server.js:38-44 | a request passes exactly when its `password` is strictly equal to the admin password; otherwise it gets 401 with "Senha incorreta" |
| Server.OnlyThePassword | server.js:38-44 | only the exact password string passes: not a missing password, not a non-string value; with no environment variable that string is "admin123" |
| Server.VerifyRoute | server.js:262-268 | `/verify` answers valid with 200 exactly when the password passes the check, and 401 with "Senha incorreta" otherwise |
| Server.AddRoute | server.js:174-199 | without the password: 401; with it, 400 exactly when one of the four required fields is falsy; with the password and the four fields the route succeeds exactly when the insert does not fail, and a failed insert gives 500 "Erro ao adicionar pergunta"; the inserted row has exactly the six columns, the required ones copied, `category_goal` defaulting to "" and `order_position` to 0 |
| Server.AddRowComplete | server.js:176-191 | the inserted row carries no password or id, and its four required fields are truthy |
| Server.AddDefaults | server.js:188-190 | a falsy or missing goal becomes "" and a falsy or missing position becomes 0 |
| Server.UpdateData | server.js:212-219 | the update holds exactly the listed fields that the body defines, each with the body's value |
| Server.EditRoute | server.js:207-232 | the edit succeeds exactly when the password passes and the update does not fail, and then writes the update payload; a wrong password gives 401, and a failed update 500 "Erro ao editar pergunta" |
| Server.EditPayloadExact | server.js:210-219 | the payload's keys are exactly the seven editable fields present in the body, with their values; the password and the id are never written |
| Server.EditKeepsAbsentFields | server.js:212-225 | a stored column the body does not mention keeps its value after the update |
| Server.StacksRoute | server.js:95-112 | the stack list has no duplicates and the same members as the queried rows; a query error gives 500 |
| Server.StacksInFirstOccurrenceOrder | server.js:111 | the stacks appear in the order of their first occurrence |
| Server.Intro | server.js:83 | the intro is "Perguntas para ", the stack, " - Nível ", then the seniority |
| Server.QuestionsRoute | server.js:51-92 | a query error gives 500; otherwise the listing has the intro and the intended grouping of the rows |
| Server.ListingAccountsForRows | server.js:69-85 | the listing holds one question per row, no two categories share a title, and every row's category has a group |
| Server.QuestionsRouteAsWritten | server.js:64-91 | as written, a database error gives 500 "Erro ao buscar perguntas"; the route answers with the grouping when it does not throw, and with 500 "Erro interno do servidor" when it does |
| Server.AsWrittenAgreesOtherwise | server.js:69-91 | as written, the route agrees with the intended one unless some category is an inherited key, and then it fails with 500 |
| Server.ConstructorCategoryFails | server.js:72-79 | a single row in category "constructor" makes the route as written fail, while the intended route lists it |
| Server.DrawIndex | server.js:140 | `Math.floor(draw * n)` is a valid index for a draw in [0, 1) |
| Server.RandomQuestion | server.js:136-141 | the random question is one of the queried questions; an empty result gives 404, a query error 500 |
| Server.EveryQuestionReachable | server.js:140 | every question is chosen by some draw in [0, 1) |
| Client.LoadInitialData | public/js/app.js:42-56 | the fetched stacks replace the list; a listed stack stays; otherwise the first stack, or "JavaScript/React" when there is none or it is empty; a failed fetch lists the four fallback stacks and keeps the stack |
| Client.LoadedStackIsListed | public/js/app.js:48-50 | after a successful load a stack is always selected, and it is listed whenever the first fetched stack is non-empty |
| Client.HandleSeniorityClick | public/js/app.js:93-112 | the seniority changes; the fetched stacks replace the list; a listed stack stays, otherwise the first fetched stack (or none) is selected; a failed fetch keeps the old list and stack |
| Client.SeniorityClickStack | public/js/app.js:99-104 | after a click with a non-empty fetched list the selected stack is listed; with an empty list it becomes undefined |
| Client.SeniorityClickIdempotent | public/js/app.js:93-112 | clicking the same seniority again with the same fetched stacks changes nothing, for every list, the empty one (stack `undefined`) included |
| Client.FilterButtons | public/js/app.js:71-91 | one button per item, in order, captioned with the item; a button carries the active class of its kind exactly when its item is the active one |
| Client.OneActiveButton | public/js/app.js:84-86 | among distinct items at most one button is active; one is active when the active item is listed; none when there is no active item |
| Client.FormatAnswer | public/js/app.js:277 | the answer has no line break left; each one became `<br>`, adding three characters |
| Client.AnswerLines | public/js/app.js:277 | the formatted answer is the answer's lines joined by `<br>`; an answer without line breaks is unchanged |
| Client.EmphasizeSegments | public/js/app.js:337 | text made of plain runs and `**x**` runs, with no `*` inside them and x non-empty, becomes the same runs with each `**x**` as `<strong>x</strong>` |
| Client.NoMarkupUnchanged | public/js/app.js:337 | text without `*` is left unchanged by the bold conversion |
| Client.EmptyBoldKept | public/js/app.js:337 | `****` is not a bold run and is kept as it is |
| Client.FormatFeedback | public/js/app.js:336-338 | the feedback has no line break left |
| Client.FeedbackSegments | public/js/app.js:336-338 | formatting feedback made of plain and bold runs gives their HTML with line breaks as `<br>` |

## Left out

- BulkReport.SubmitBulkImport: where the messages sit in the dialog is not modelled (the
  message is inserted before the dialog's last element, the error box appended);
  the messages are listed in the order they were added.
- Network, DOM and storage: `fetch`, the database client, the DOM elements, the
  notification timers and the delayed dialog close (`setTimeout`). Their results
  are inputs, and their side effects are not modelled.
- `server.js` defines no handler for `/api/admin/questions/bulk`, the path
  the panel posts a batch to. The framework answers with its 404 page,
  `response.json()` throws on it, and as written every submission with
  records ends in the `Thrown` case (`BulkReport.SubmitBulkImport` with
  `Thrown`, stated by `BulkReport.SubmitAgainstThisServer`). The `Ok` and
  `NotOk` cases model how the panel reads the answer of a server that has
  such a route; no such route is modelled.
- `/api/generate`, the call to the language model and the prompt texts are
  left out: external service calls.
- `public/js/api.js` and `guiadev/server.js` are context, not modelled.
- The admin list route, the delete route, login, logout, the table and the
  forms of the admin panel are left out: they only pass data through.
- HTML templates: the markup around the preview rows and the feedback is not
  modelled. The error box is modelled as its innerHTML, with its `<strong>` and
  `<br>` markup kept and the template's line feeds and indentation removed
  (the browser renders those as spaces).
- Object key order: `Object.values(groupedQuestions)` lists integer-like keys
  first in JavaScript. The model keeps first-occurrence order for all
  categories.
- `Server.AddRoute`: numbers are `real`; `NaN` and the exact JSON number forms
  are not distinguished.
- `Numbers.ParseInt` does not model values beyond 2^53 losing precision, nor
  the radix argument, which the code never passes.
- Preview.PreviewSummary: the rendered text `"n perguntas • s stacks • c
  categorias"` is not built; only its three numbers are stated.
- Server.RandomQuestion: the random draw is a parameter, so the distribution
  of `Math.random()` is not stated.

## Findings

| source | as written | input that shows it | evidently intended | confidence | as-written member | corrected member |
|---|---|---|---|---|---|---|
| server.js:70-79 | groups are looked up in a plain `{}`; a category named like an `Object.prototype` member reads an inherited value, which is truthy, so no group is created and `.items.push` throws | one active row whose category is `constructor` (or `toString`, `__proto__`, …); the route answers 500 "Erro interno do servidor" | every category gets its own group (an own-key lookup, or a `Map`) | not executed | Server.ConstructorCategoryFails | Grouping.GroupedIsGroupsOf |

=== FILE: bulk_report.dfy ===
/** What the admin panel shows after sending a batch (`submitBulkImport`):
    the precheck, the success banner, the listing of the first errors with a
    count of the rest, and the failure message. `server.js` defines no
    handler for the batch path `/api/admin/questions/bulk`: the framework
    answers it with its 404 page, reading that page as JSON throws, and so
    every submission with records ends in the `Thrown` case. The `Ok` and
    `NotOk` cases model how the panel reads an answer that a server with
    such a route would send. */
module BulkReport {
  import opened Wrappers
  import opened Text
  import opened Numbers
  import opened Records

  const NothingToImport: string := "Nenhuma pergunta para importar. Gere o preview primeiro."
  const FailurePrefix: string := "Erro durante a importação: "
  const DefaultImportError: string := "Erro na importação"
  const ErrorsHeader: string := "<strong>Erros encontrados:</strong><br>"
  const LineBreak: string := "<br>"
  const OverflowLead: string := "<br>... e mais "

  /** How many errors are listed one by one. */
  const ShownErrors: nat := 5

  /** One failed record of the batch: its position in the batch (from 0) and
      the reason. */
  datatype ErrorEntry = ErrorEntry(index: int, error: string)

  /** The `results` object of the server's answer. */
  datatype BulkResults = BulkResults(success: int, total: int, errors: seq<ErrorEntry>)

  /** The server's answer as the client sees it: a non-OK status with the
      `error` field of its body (absent or not), an OK answer with its
      results, or an exception carrying a message. */
  datatype Response =
    | NotOk(errorField: Option<string>)
    | Ok(results: BulkResults)
    | Thrown(message: string)

  datatype Tone = SuccessTone | WarningTone | ErrorTone

  datatype Message = Message(text: string, tone: Tone)

  /** The messages of the dialog after the import, in the order they were
      added, and whether the question list is reloaded (and the dialog
      closed later). Each call of `showBulkMessage` first removes every
      message on screen, the error box included; the error box is added
      without removing anything. */
  datatype Outcome = Outcome(shown: seq<Message>, reload: bool)

  /** A line of the error listing reads back: it starts with "Linha ", the
      number after the label is `n`, and it ends with ": " and the reason. */
  predicate ReadsAsErrorLine(line: string, n: int, reason: string) {
    && |line| > 6 && line[..6] == "Linha "
    && ParseInt(line[6..]) == Some(n)
    && |line| >= |reason| + 2 && line[|line| - |reason| - 2..] == ": " + reason
  }

  /** One line of the error listing; the position is counted from 1. */
  function ErrorLine(e: ErrorEntry): (line: string)
    ensures ReadsAsErrorLine(line, e.index + 1, e.error)
  {
    ErrorLineParts(e.index + 1, e.error);
    "Linha " + (Decimal(e.index + 1) + (": " + e.error))
  }

  lemma ErrorLineParts(n: int, reason: string)
    ensures ReadsAsErrorLine("Linha " + (Decimal(n) + (": " + reason)), n, reason)
  {
    var rest := ": " + reason;
    ParseIntDecimalThen(n, rest);
    LiteralPrefix("Linha ", Decimal(n) + rest);
    LiteralSuffix("Linha ", Decimal(n), rest);
  }

  lemma LiteralPrefix(p: string, t: string)
    ensures (p + t)[..|p|] == p && (p + t)[|p|..] == t
  {
  }

  lemma LiteralSuffix(a: string, b: string, s: string)
    ensures (a + (b + s))[|a| + |b|..] == s
  {
    assert a + (b + s) == (a + b) + s;
  }

  function Min(a: nat, b: nat): nat {
    if a < b then a else b
  }

  /** The errors listed one by one: the first five, each with its line. */
  function ListedErrors(errors: seq<ErrorEntry>): (lines: seq<string>)
    ensures |lines| == Min(ShownErrors, |errors|)
    ensures forall i :: 0 <= i < |lines| ==> lines[i] == ErrorLine(errors[i])
  {
    var shown := errors[..Min(ShownErrors, |errors|)];
    seq(|shown|, i requires 0 <= i < |shown| => ErrorLine(shown[i]))
  }

  /** The text counting the errors that are not listed. */
  function OverflowText(n: nat): string {
    OverflowLead + (Decimal(n) + " erros")
  }

  /** The suffix after the listed errors: present exactly when there are
      more than five, and then it counts the errors not listed. */
  function Overflow(errors: seq<ErrorEntry>): (suffix: string)
    ensures suffix == [] <==> |errors| <= ShownErrors
    ensures |errors| > ShownErrors ==> suffix == OverflowText(|errors| - ShownErrors)
  {
    if |errors| > ShownErrors then OverflowText(|errors| - ShownErrors) else []
  }

  /** The number in the overflow text reads back as the count it was made
      from. */
  lemma OverflowCount(n: nat)
    ensures var s := OverflowText(n);
      && s[..|OverflowLead|] == OverflowLead
      && ParseInt(s[|OverflowLead|..]) == Some(n)
  {
    ParseIntDecimalThen(n, " erros");
    LiteralPrefix(OverflowLead, Decimal(n) + " erros");
  }

  /** The error box, present exactly when the batch had errors. Its value
      is the box's innerHTML, markup included, with the template's line
      feeds and indentation removed: the header, the listed errors
      separated by `<br>`, and the overflow suffix. */
  function ErrorBox(errors: seq<ErrorEntry>): (box: Option<string>)
    ensures box.Some? <==> |errors| > 0
    ensures box.Some? ==> box.value == ErrorsHeader + JoinWith(LineBreak, ListedErrors(errors)) + Overflow(errors)
  {
    if |errors| == 0 then None
    else Some(ErrorsHeader + JoinWith(LineBreak, ListedErrors(errors)) + Overflow(errors))
  }

  /** The success banner, shown exactly when at least one record was stored;
      it is a warning when some records failed. */
  function Banner(r: BulkResults): (m: Option<Message>)
    ensures m.Some? <==> r.success > 0
    ensures m.Some? ==> (m.value.tone == WarningTone <==> |r.errors| > 0)
    ensures m.Some? ==> m.value.tone != ErrorTone
    ensures m.Some? ==> m.value.text == BannerText(r.success, r.total)
  {
    if r.success > 0 then
      Some(Message(BannerText(r.success, r.total), if |r.errors| == 0 then SuccessTone else WarningTone))
    else None
  }

  /** "✅ stored/total perguntas importadas com sucesso!" */
  function BannerText(success: int, total: int): string {
    "✅ " + (Decimal(success) + ("/" + Decimal(total) + " perguntas importadas com sucesso!"))
  }

  /** The banner starts with the number of stored records, which reads back. */
  lemma BannerCount(success: int, total: int)
    ensures var text := BannerText(success, total);
      && |text| > 2 && text[..2] == "✅ "
      && ParseInt(text[2..]) == Some(success)
  {
    var rest := "/" + Decimal(total) + " perguntas importadas com sucesso!";
    ParseIntDecimalThen(success, rest);
    LiteralPrefix("✅ ", Decimal(success) + rest);
  }

  /** The message of a failed request: the server's error text, or a
      default when the body has none (or an empty one). */
  function FailureText(resp: Response): (text: string)
    requires !resp.Ok?
    ensures resp.NotOk? && resp.errorField.Some? && resp.errorField.value != [] ==>
      text == FailurePrefix + resp.errorField.value
    ensures resp.NotOk? && (resp.errorField.None? || resp.errorField.value == []) ==>
      text == FailurePrefix + DefaultImportError
    ensures resp.Thrown? ==> text == FailurePrefix + resp.message
  {
    match resp
    case NotOk(field) =>
      FailurePrefix + (if field.Some? && field.value != [] then field.value else DefaultImportError)
    case Thrown(message) => FailurePrefix + message
  }

  /** `submitBulkImport()`: nothing is sent without records; a failed request
      replaces the messages on screen by the error; an answer shows the
      banner in place of the earlier messages when something was stored,
      and otherwise leaves them, then adds the error box when there were
      errors. The list is reloaded when anything was stored. `before` is what
      the dialog shows when the button is pressed. */
  function SubmitBulkImport(before: seq<Message>, toImport: seq<QuestionRecord>, resp: Response): (o: Outcome)
    ensures |toImport| == 0 ==> o == Outcome([Message(NothingToImport, ErrorTone)], false)
    ensures |toImport| > 0 && !resp.Ok? ==>
      o == Outcome([Message(FailureText(resp), ErrorTone)], false)
    ensures |toImport| > 0 && resp.Ok? ==>
      var r := resp.results;
      var boxes := if |r.errors| > 0 then 1 else 0;
      && (o.reload <==> r.success > 0)
      && (r.success > 0 ==> |o.shown| == 1 + boxes && o.shown[0] == Banner(r).value)
      && (r.success <= 0 ==> |o.shown| == |before| + boxes && o.shown[..|before|] == before)
      && (|r.errors| > 0 ==> o.shown[|o.shown| - 1] == Message(ErrorBox(r.errors).value, ErrorTone))
  {
    if |toImport| == 0 then Outcome([Message(NothingToImport, ErrorTone)], false)
    else match resp
      case Ok(r) =>
        var afterBanner := match Banner(r) case Some(m) => [m] case None => before;
        var box := match ErrorBox(r.errors) case Some(b) => [Message(b, ErrorTone)] case None => [];
        Outcome(afterBanner + box, r.success > 0)
      case _ => Outcome([Message(FailureText(resp), ErrorTone)], false)
  }

  /** An answer with no stored record and no error adds nothing: the
      messages already on screen (the preview's, say) stay as they were, and
      nothing is reloaded. */
  lemma SilentWhenNothingHappened(before: seq<Message>, toImport: seq<QuestionRecord>, r: BulkResults)
    requires |toImport| > 0 && r.success <= 0 && |r.errors| == 0
    ensures SubmitBulkImport(before, toImport, Ok(r)) == Outcome(before, false)
  {
  }

  /** When nothing was stored, the earlier messages stay above the error box. */
  lemma FailedBatchKeepsPreview(before: seq<Message>, toImport: seq<QuestionRecord>, r: BulkResults)
    requires |toImport| > 0 && r.success <= 0 && |r.errors| > 0
    ensures SubmitBulkImport(before, toImport, Ok(r)).shown
         == before + [Message(ErrorBox(r.errors).value, ErrorTone)]
  {
  }

  /** Against `server.js` as written: the batch path has no handler, the 404
      page is not JSON, and the parse error is what the panel shows, alone,
      with nothing reloaded. */
  lemma SubmitAgainstThisServer(before: seq<Message>, toImport: seq<QuestionRecord>, parseError: string)
    requires |toImport| > 0
    ensures SubmitBulkImport(before, toImport, Thrown(parseError))
         == Outcome([Message(FailurePrefix + parseError, ErrorTone)], false)
  {
  }
}

=== FILE: client.dfy ===
/** The selection rules of the public page: which stack stays selected when
    the list of stacks is (re)loaded, which filter button is marked active,
    and how the generated answer and feedback texts become HTML. The fetch
    of the stacks is an input, `None` when it throws. */
module Client {
  import opened Wrappers
  import opened Text
  import opened Collections

  // ----- The selected seniority and stack -----

  const DefaultStack: string := "JavaScript/React"

  /** The stacks shown when they cannot be loaded at start-up. */
  const FallbackStacks: seq<string> := ["JavaScript/React", "Java", "Node.js", "Python"]

  /** The page's selection; the stack is `None` when it has become
      `undefined`. */
  datatype Selection = Selection(seniority: string, stack: Option<string>, available: seq<string>)

  predicate Listed(stack: Option<string>, available: seq<string>) {
    stack.Some? && stack.value in available
  }

  /** `loadInitialData()`: the fetched stacks replace the list; the stack
      stays if it is listed, and otherwise becomes the first listed one, or
      the default when there is none (or the first one is the empty string).
      When the fetch throws, the four fallback stacks are listed and the
      stack is left alone. */
  function LoadInitialData(s: Selection, fetched: Option<seq<string>>): (r: Selection)
    ensures r.seniority == s.seniority
    ensures fetched.None? ==> r.available == FallbackStacks && r.stack == s.stack
    ensures fetched.Some? ==> r.available == fetched.value
    ensures fetched.Some? && Listed(s.stack, fetched.value) ==> r.stack == s.stack
    ensures fetched.Some? && !Listed(s.stack, fetched.value) ==>
      r.stack == Some(if |fetched.value| > 0 && fetched.value[0] != [] then fetched.value[0] else DefaultStack)
  {
    match fetched
    case None => s.(available := FallbackStacks)
    case Some(stacks) =>
      if Listed(s.stack, stacks) then s.(available := stacks)
      else s.(available := stacks, stack := Some(FirstOr(stacks, DefaultStack)))
  }

  /** `list[0] || fallback` for a list of strings. */
  function FirstOr(list: seq<string>, fallback: string): string {
    if |list| > 0 && list[0] != [] then list[0] else fallback
  }

  /** After a successful load the stack is always defined, and it is one of
      the listed stacks unless the list is empty or starts with "". */
  lemma LoadedStackIsListed(s: Selection, stacks: seq<string>)
    ensures LoadInitialData(s, Some(stacks)).stack.Some?
    ensures |stacks| > 0 && stacks[0] != [] ==> Listed(LoadInitialData(s, Some(stacks)).stack, stacks)
    ensures |stacks| == 0 ==> LoadInitialData(s, Some(stacks)).stack == Some(DefaultStack)
  {
  }

  /** `handleSeniorityClick(seniority)`: the seniority changes first; when the
      stacks load, they replace the list and the stack stays if listed and
      otherwise becomes the first listed one, `undefined` for an empty list.
      When the fetch throws, only the seniority has changed. */
  function HandleSeniorityClick(s: Selection, seniority: string, fetched: Option<seq<string>>): (r: Selection)
    ensures r.seniority == seniority
    ensures fetched.None? ==> r.available == s.available && r.stack == s.stack
    ensures fetched.Some? ==> r.available == fetched.value
    ensures fetched.Some? && Listed(s.stack, fetched.value) ==> r.stack == s.stack
    ensures fetched.Some? && !Listed(s.stack, fetched.value) ==>
      r.stack == (if |fetched.value| > 0 then Some(fetched.value[0]) else None)
  {
    var s1 := s.(seniority := seniority);
    match fetched
    case None => s1
    case Some(stacks) =>
      if Listed(s.stack, stacks) then s1.(available := stacks)
      else s1.(available := stacks, stack := if |stacks| > 0 then Some(stacks[0]) else None)
  }

  /** After a seniority change that loaded a non-empty list, the stack is one
      of the listed stacks; after one that loaded none, it is undefined. */
  lemma SeniorityClickStack(s: Selection, seniority: string, stacks: seq<string>)
    ensures |stacks| > 0 ==> Listed(HandleSeniorityClick(s, seniority, Some(stacks)).stack, stacks)
    ensures |stacks| == 0 ==> HandleSeniorityClick(s, seniority, Some(stacks)).stack.None?
  {
  }

  /** Clicking the same seniority again with the same list changes nothing,
      even when the list is empty and the stack has become `undefined`. */
  lemma SeniorityClickIdempotent(s: Selection, seniority: string, stacks: seq<string>)
    ensures var r := HandleSeniorityClick(s, seniority, Some(stacks));
      HandleSeniorityClick(r, seniority, Some(stacks)) == r
  {
  }

  // ----- Filter buttons -----

  datatype Kind = SeniorityKind | StackKind

  /** A filter button: its text and the extra class marking it active. */
  datatype Button = Button(caption: string, activeClass: Option<string>)

  function ActiveClass(kind: Kind): string {
    match kind
    case SeniorityKind => "active-seniority"
    case StackKind => "active-stack"
  }

  /** `createFilterButtons()`: one button per item, in item order, marked
      active exactly when its item is the active one. */
  function FilterButtons(items: seq<string>, active: Option<string>, kind: Kind): (bs: seq<Button>)
    ensures |bs| == |items|
    ensures forall i :: 0 <= i < |bs| ==> bs[i].caption == items[i]
    ensures forall i :: 0 <= i < |bs| ==> (bs[i].activeClass.Some? <==> active == Some(items[i]))
    ensures forall i :: 0 <= i < |bs| && bs[i].activeClass.Some? ==> bs[i].activeClass.value == ActiveClass(kind)
  {
    if |items| == 0 then []
    else
      var b := Button(items[0], if active == Some(items[0]) then Some(ActiveClass(kind)) else None);
      [b] + FilterButtons(items[1..], active, kind)
  }

  /** With distinct items, at most one button is active, and exactly one
      when the active item is listed; an undefined selection marks none. */
  lemma OneActiveButton(items: seq<string>, active: Option<string>, kind: Kind)
    requires NoDuplicates(items)
    ensures var bs := FilterButtons(items, active, kind);
      && (forall i, j :: 0 <= i < |bs| && 0 <= j < |bs| && bs[i].activeClass.Some? && bs[j].activeClass.Some? ==> i == j)
      && (Listed(active, items) ==> exists i :: 0 <= i < |bs| && bs[i].activeClass.Some?)
      && (active.None? ==> forall i :: 0 <= i < |bs| ==> bs[i].activeClass.None?)
  {
    var bs := FilterButtons(items, active, kind);
    if Listed(active, items) {
      var i :| 0 <= i < |items| && items[i] == active.value;
      assert bs[i].activeClass.Some?;
    }
  }

  // ----- Formatting of generated text -----

  const LineBreak: string := "<br>"

  /** The generated answer with every line feed turned into a line break. */
  function FormatAnswer(s: string): (r: string)
    ensures '\n' !in r
    ensures |r| == |s| + 3 * Count('\n', s)
  {
    ReplaceChar(s, '\n', LineBreak)
  }

  /** The answer's lines, joined by line breaks. */
  lemma AnswerLines(s: string)
    ensures FormatAnswer(s) == JoinWith(LineBreak, Split(s, '\n'))
    ensures '\n' !in s ==> FormatAnswer(s) == s
  {
    ReplaceCharIsSplitJoin(s, '\n', LineBreak);
    if '\n' !in s {
      SplitNoSeparator(s, '\n');
    }
  }

  /** The length of the run of characters other than `*` at the start. */
  function StarFreeRun(s: string): (k: nat)
    ensures k <= |s|
    ensures forall i :: 0 <= i < k ==> s[i] != '*'
    ensures k < |s| ==> s[k] == '*'
  {
    if |s| == 0 || s[0] == '*' then 0 else 1 + StarFreeRun(s[1..])
  }

  // The length of `x` when `s` starts with `**x**`, x a non-empty run
  // without asterisks.
  function MatchAt(s: string): (r: Option<nat>)
    ensures r.Some? ==> r.value >= 1 && r.value + 4 <= |s|
  {
    if |s| >= 2 && s[0] == '*' && s[1] == '*' then
      var k := StarFreeRun(s[2..]);
      if k >= 1 && k + 4 <= |s| && s[k + 3] == '*' then Some(k) else None
    else None
  }

  // The global replace of `**x**` (x a non-empty run without asterisks) by
  // `<strong>x</strong>`: matches are taken from left to right without
  // overlapping; a character that starts no match is kept.
  function Emphasize(s: string): (r: string)
    decreases |s|
  {
    if |s| == 0 then []
    else match MatchAt(s)
      case Some(k) => "<strong>" + s[2..k + 2] + "</strong>" + Emphasize(s[k + 4..])
      case None => [s[0]] + Emphasize(s[1..])
  }

  /** A piece of marked-up text: plain text, or text between `**` pairs. */
  datatype Segment = Plain(text: string) | Bold(text: string)

  predicate ValidSegment(g: Segment) {
    '*' !in g.text && (g.Bold? ==> |g.text| >= 1)
  }

  /** The segments as markdown. */
  function Markdown(segs: seq<Segment>): string {
    if |segs| == 0 then []
    else
      (match segs[0]
       case Plain(t) => t
       case Bold(t) => "**" + t + "**") + Markdown(segs[1..])
  }

  /** The segments as HTML. */
  function Html(segs: seq<Segment>): string {
    if |segs| == 0 then []
    else
      (match segs[0]
       case Plain(t) => t
       case Bold(t) => "<strong>" + t + "</strong>") + Html(segs[1..])
  }

  lemma {:induction false} StarFreeRunStops(x: string, t: string)
    requires '*' !in x && |t| > 0 && t[0] == '*'
    ensures StarFreeRun(x + t) == |x|
  {
    if |x| > 0 {
      assert (x + t)[1..] == x[1..] + t;
      StarFreeRunStops(x[1..], t);
    }
  }

  /** Text without asterisks is copied unchanged. */
  lemma {:induction false} EmphasizePlain(t: string, rest: string)
    requires '*' !in t
    ensures Emphasize(t + rest) == t + Emphasize(rest)
  {
    if |t| > 0 {
      EmphasizePlain(t[1..], rest);
      PlainStep(t, rest);
    } else {
      assert t + rest == rest;
    }
  }

  lemma PlainStep(t: string, rest: string)
    requires |t| > 0 && '*' !in t
    requires Emphasize(t[1..] + rest) == t[1..] + Emphasize(rest)
    ensures Emphasize(t + rest) == t + Emphasize(rest)
  {
    HeadAndTail(t, rest);
    KeptCharacter(t + rest);
    AppendAssociative([t[0]], t[1..], Emphasize(rest));
  }

  /** A character other than `*` starts no match and is kept. */
  lemma KeptCharacter(s: string)
    requires |s| > 0 && s[0] != '*'
    ensures Emphasize(s) == [s[0]] + Emphasize(s[1..])
  {
    assert MatchAt(s).None?;
  }

  /** A `**x**` with a non-empty asterisk-free `x` becomes a strong element. */
  lemma EmphasizeBold(x: string, rest: string)
    requires ValidSegment(Bold(x))
    ensures Emphasize("**" + x + "**" + rest) == "<strong>" + x + "</strong>" + Emphasize(rest)
  {
    var s := "**" + x + "**" + rest;
    assert s[2..] == x + ("**" + rest);
    StarFreeRunStops(x, "**" + rest);
    assert MatchAt(s) == Some(|x|);
    assert s[2..|x| + 2] == x;
    assert s[|x| + 4..] == rest;
  }

  /** Markdown written from valid segments is emphasised segment by segment. */
  lemma {:induction false} EmphasizeSegments(segs: seq<Segment>)
    requires forall i :: 0 <= i < |segs| ==> ValidSegment(segs[i])
    ensures Emphasize(Markdown(segs)) == Html(segs)
  {
    if |segs| > 0 {
      EmphasizeSegments(segs[1..]);
      var rest := Markdown(segs[1..]);
      match segs[0]
      case Plain(t) =>
        EmphasizePlain(t, rest);
      case Bold(t) =>
        assert Markdown(segs) == "**" + t + "**" + rest;
        EmphasizeBold(t, rest);
    }
  }

  /** Text without asterisks is not emphasised at all. */
  lemma NoMarkupUnchanged(s: string)
    requires '*' !in s
    ensures Emphasize(s) == s
  {
    EmphasizePlain(s, []);
    assert s + [] == s;
  }

  /** An empty `****` is not a match and is kept as it is. */
  lemma EmptyBoldKept()
    ensures Emphasize("****") == "****"
  {
    assert MatchAt("****").None?;
    assert MatchAt("***").None?;
    assert MatchAt("**").None?;
    assert "****"[1..] == "***" && "***"[1..] == "**" && "**"[1..] == "*";
  }

  /** The feedback: emphasis first, then line breaks. */
  function FormatFeedback(s: string): (r: string)
    ensures '\n' !in r
  {
    ReplaceChar(Emphasize(s), '\n', LineBreak)
  }

  /** Feedback written as valid segments becomes their HTML with line
      breaks, so a bold part may span lines. */
  lemma FeedbackSegments(segs: seq<Segment>)
    requires forall i :: 0 <= i < |segs| ==> ValidSegment(segs[i])
    ensures FormatFeedback(Markdown(segs)) == FormatAnswer(Html(segs))
  {
    EmphasizeSegments(segs);
  }
}

=== FILE: collections.dfy ===
/** The array idioms the source leans on: `filter`, `[...new Set(xs)]`, and
    the order relations that describe them. */
module Collections {
  import opened Wrappers

  predicate NoDuplicates<T(==)>(xs: seq<T>) {
    forall i, j :: 0 <= i < j < |xs| ==> xs[i] != xs[j]
  }

  /** `a` is `b` with some elements left out, the rest in their order. */
  predicate IsSubsequence<T(==)>(a: seq<T>, b: seq<T>)
    decreases |b|
  {
    if |a| == 0 then true
    else if |b| == 0 then false
    else if a[|a| - 1] == b[|b| - 1] then IsSubsequence(a[..|a| - 1], b[..|b| - 1])
    else IsSubsequence(a, b[..|b| - 1])
  }

  /** A subsequence stays one when the longer list grows. */
  lemma {:induction false} SubsequenceExtend<T>(a: seq<T>, b: seq<T>, x: T)
    requires IsSubsequence(a, b)
    ensures IsSubsequence(a, b + [x])
    decreases |b|, 1
  {
    var b' := b + [x];
    assert b'[..|b'| - 1] == b;
    if |a| > 0 && a[|a| - 1] == x {
      SubsequenceDropLast(a, b);
    }
  }

  /** Dropping the last element of a subsequence leaves a subsequence. */
  lemma {:induction false} SubsequenceDropLast<T>(a: seq<T>, b: seq<T>)
    requires |a| > 0 && IsSubsequence(a, b)
    ensures IsSubsequence(a[..|a| - 1], b)
    decreases |b|, 0
  {
    var a' := a[..|a| - 1];
    var b' := b[..|b| - 1];
    assert b == b' + [b[|b| - 1]];
    if a[|a| - 1] == b[|b| - 1] {
      SubsequenceExtend(a', b', b[|b| - 1]);
    } else {
      SubsequenceDropLast(a, b');
      SubsequenceExtend(a', b', b[|b| - 1]);
    }
  }

  /** `xs.filter(p)`: the elements satisfying `p`, in order. */
  function Filter<T>(p: T -> bool, xs: seq<T>): (r: seq<T>)
    ensures |r| <= |xs|
  {
    if |xs| == 0 then []
    else
      var r := Filter(p, xs[..|xs| - 1]);
      if p(xs[|xs| - 1]) then r + [xs[|xs| - 1]] else r
  }

  /** What the filter keeps comes from the list and passes. */
  lemma {:induction false} FilterSound<T>(p: T -> bool, xs: seq<T>)
    ensures forall i :: 0 <= i < |Filter(p, xs)| ==> Filter(p, xs)[i] in xs && p(Filter(p, xs)[i])
  {
    if |xs| > 0 {
      var init := xs[..|xs| - 1];
      FilterSound(p, init);
      assert forall y :: y in init ==> y in xs;
    }
  }

  /** What passes is kept. */
  lemma {:induction false} FilterComplete<T>(p: T -> bool, xs: seq<T>)
    ensures forall i :: 0 <= i < |xs| && p(xs[i]) ==> xs[i] in Filter(p, xs)
  {
    if |xs| > 0 {
      var init := xs[..|xs| - 1];
      FilterComplete(p, init);
      assert forall i :: 0 <= i < |init| ==> init[i] == xs[i];
    }
  }

  /** What the filter keeps stays in list order. */
  lemma {:induction false} FilterSubsequence<T>(p: T -> bool, xs: seq<T>)
    ensures IsSubsequence(Filter(p, xs), xs)
  {
    if |xs| > 0 {
      var x := xs[|xs| - 1];
      var init := xs[..|xs| - 1];
      assert xs == init + [x];
      var r := Filter(p, init);
      FilterSubsequence(p, init);
      SubsequenceExtend(r, init, x);
      if p(x) {
        assert (r + [x])[..|r|] == r;
      }
    }
  }

  /** The filter keeps every copy of a passing element and no copy of a
      failing one. */
  lemma {:induction false} FilterMultiplicity<T>(p: T -> bool, xs: seq<T>, x: T)
    ensures multiset(Filter(p, xs))[x] == if p(x) then multiset(xs)[x] else 0
  {
    if |xs| > 0 {
      var init := xs[..|xs| - 1];
      var last := xs[|xs| - 1];
      FilterMultiplicity(p, init, x);
      assert xs == init + [last];
      assert multiset(xs) == multiset(init) + multiset{last};
      if p(last) {
        assert multiset(Filter(p, xs)) == multiset(Filter(p, init)) + multiset{last};
      }
    }
  }

  /** Filtering with a predicate every element meets keeps the list whole. */
  lemma {:induction false} FilterAll<T>(p: T -> bool, xs: seq<T>)
    requires forall i :: 0 <= i < |xs| ==> p(xs[i])
    ensures Filter(p, xs) == xs
  {
    if |xs| > 0 {
      FilterAll(p, xs[..|xs| - 1]);
      assert xs == xs[..|xs| - 1] + [xs[|xs| - 1]];
    }
  }

  /** The values `f` gives for the elements it accepts, in order: a
      `forEach` that pushes a value for some elements and skips the rest. */
  function FilterMap<A, B>(f: A -> Option<B>, xs: seq<A>): (r: seq<B>)
    ensures |r| <= |xs|
    ensures forall k :: 0 <= k < |r| ==> exists i :: 0 <= i < |xs| && f(xs[i]) == Some(r[k])
    ensures forall i :: 0 <= i < |xs| && f(xs[i]).Some? ==> f(xs[i]).value in r
  {
    if |xs| == 0 then []
    else
      var rest := FilterMap(f, xs[1..]);
      var head := if f(xs[0]).Some? then [f(xs[0]).value] else [];
      assert forall i :: 1 <= i < |xs| ==> xs[i] == xs[1..][i - 1];
      assert forall k :: |head| <= k < |head + rest| ==> (head + rest)[k] == rest[k - |head|];
      head + rest
  }

  /** Each element contributes on its own and in place. */
  lemma {:induction false} FilterMapAppend<A, B>(f: A -> Option<B>, a: seq<A>, b: seq<A>)
    ensures FilterMap(f, a + b) == FilterMap(f, a) + FilterMap(f, b)
  {
    if |a| > 0 {
      FilterMapAppend(f, a[1..], b);
      var h := if f(a[0]).Some? then [f(a[0]).value] else [];
      assert FilterMap(f, a + b) == h + FilterMap(f, a[1..] + b) by {
        assert (a + b)[1..] == a[1..] + b;
        assert (a + b)[0] == a[0];
      }
      assert FilterMap(f, a) == h + FilterMap(f, a[1..]);
      AppendAssociative(h, FilterMap(f, a[1..]), FilterMap(f, b));
    } else {
      assert a + b == b;
    }
  }

  /** The first element and the rest of a non-empty list followed by more. */
  lemma HeadAndTail<T>(t: seq<T>, rest: seq<T>)
    requires |t| > 0
    ensures (t + rest)[0] == t[0] && (t + rest)[1..] == t[1..] + rest && [t[0]] + t[1..] == t
  {
  }

  lemma AppendAssociative<T>(a: seq<T>, b: seq<T>, c: seq<T>)
    ensures a + b + c == a + (b + c)
  {
  }

  /** When `f` accepts every element the result is `f` applied pointwise. */
  lemma {:induction false} FilterMapAll<A, B>(f: A -> Option<B>, xs: seq<A>)
    requires forall i :: 0 <= i < |xs| ==> f(xs[i]).Some?
    ensures |FilterMap(f, xs)| == |xs|
    ensures forall i :: 0 <= i < |xs| ==> FilterMap(f, xs)[i] == f(xs[i]).value
  {
    if |xs| > 0 {
      FilterMapAll(f, xs[1..]);
      assert forall i :: 1 <= i < |xs| ==> xs[i] == xs[1..][i - 1];
    }
  }

  /** The values present in a list of optional values, in order: a
      `forEach` that pushes a value for some elements and skips the rest,
      once what each element gives has been worked out. */
  function Somes<B>(opts: seq<Option<B>>): (r: seq<B>)
    ensures |r| <= |opts|
  {
    if |opts| == 0 then [] else opts[0].ToSeq() + Somes(opts[1..])
  }

  lemma SomesCons<B>(opts: seq<Option<B>>)
    requires |opts| > 0
    ensures Somes(opts) == opts[0].ToSeq() + Somes(opts[1..])
  {
  }

  lemma ThreeElements<T>(s: seq<T>, a: T, b: T, c: T)
    requires |s| == 3 && s[0] == a && s[1] == b && s[2] == c
    ensures s == [a, b, c]
  {
  }

  /** A missing value between two present ones leaves no trace. */
  lemma SomesSkipGap<B>(x: B, y: B)
    ensures Somes([Some(x), None, Some(y)]) == [x, y]
  {
    var opts := [Some(x), None, Some(y)];
    SomesCons(opts);
    assert opts[1..] == [None, Some(y)];
    SomesCons(opts[1..]);
    assert opts[1..][1..] == [Some(y)];
    SomesCons([Some(y)]);
    assert [Some(y)][1..] == [];
  }

  /** Every value comes from some position. */
  lemma {:induction false} SomesSource<B>(opts: seq<Option<B>>)
    ensures forall k :: 0 <= k < |Somes(opts)| ==> exists j :: 0 <= j < |opts| && opts[j] == Some(Somes(opts)[k])
  {
    if |opts| > 0 {
      SomesSource(opts[1..]);
      var rest := Somes(opts[1..]);
      var r := Somes(opts);
      var h := |opts[0].ToSeq()|;
      forall k | 0 <= k < |r|
        ensures exists j :: 0 <= j < |opts| && opts[j] == Some(r[k])
      {
        if k < h {
          assert opts[0] == Some(r[k]);
        } else {
          assert r[k] == rest[k - h];
          var j :| 0 <= j < |opts[1..]| && opts[1..][j] == Some(rest[k - h]);
          assert opts[j + 1] == Some(r[k]);
        }
      }
    } else {
      assert Somes(opts) == [];
    }
  }

  /** Every value present is in the result. */
  lemma {:induction false} SomesComplete<B>(opts: seq<Option<B>>)
    ensures forall j :: 0 <= j < |opts| && opts[j].Some? ==> opts[j].value in Somes(opts)
  {
    if |opts| > 0 {
      SomesComplete(opts[1..]);
      var rest := Somes(opts[1..]);
      var r := Somes(opts);
      assert forall x :: x in rest ==> x in r;
      forall j | 1 <= j < |opts| && opts[j].Some?
        ensures opts[j].value in r
      {
        assert opts[j] == opts[1..][j - 1];
      }
    }
  }

  /** Each of `r` sits in `opts` at its key, counted from `start`. */
  ghost predicate AtKeys<B>(r: seq<B>, opts: seq<Option<B>>, key: B -> int, start: int) {
    forall k :: 0 <= k < |r| ==>
      start <= key(r[k]) < start + |opts| && opts[key(r[k]) - start] == Some(r[k])
  }

  ghost predicate KeysIncrease<B>(r: seq<B>, key: B -> int) {
    forall k, l :: 0 <= k < l < |r| ==> key(r[k]) < key(r[l])
  }

  /** When each value carries its position (counted from `start`) as `key`,
      every value sits at its key and the keys strictly increase. */
  lemma {:induction false} SomesAt<B>(opts: seq<Option<B>>, key: B -> int, start: int)
    requires forall j :: 0 <= j < |opts| && opts[j].Some? ==> key(opts[j].value) == start + j
    ensures AtKeys(Somes(opts), opts, key, start) && KeysIncrease(Somes(opts), key)
  {
    if |opts| > 0 {
      assert forall j :: 0 <= j < |opts[1..]| ==> opts[1..][j] == opts[j + 1];
      SomesAt(opts[1..], key, start + 1);
      if opts[0].Some? {
        SomesAtHead(opts, key, start);
        SomesIncreaseHead(opts, key, start);
      } else {
        assert Somes(opts) == Somes(opts[1..]);
        SomesAtSkip(opts, key, start);
      }
    } else {
      assert Somes(opts) == [];
    }
  }

  lemma SomesAtHead<B>(opts: seq<Option<B>>, key: B -> int, start: int)
    requires |opts| > 0 && opts[0].Some? && key(opts[0].value) == start
    requires AtKeys(Somes(opts[1..]), opts[1..], key, start + 1)
    ensures AtKeys(Somes(opts), opts, key, start)
  {
    var rest := Somes(opts[1..]);
    var r := Somes(opts);
    assert r == [opts[0].value] + rest;
    forall k | 1 <= k < |r|
      ensures start < key(r[k]) < start + |opts| && opts[key(r[k]) - start] == Some(r[k])
    {
      var q := rest[k - 1];
      assert r[k] == q;
      var p := key(q) - start;
      assert opts[1..][p - 1] == opts[p];
    }
  }

  lemma SomesIncreaseHead<B>(opts: seq<Option<B>>, key: B -> int, start: int)
    requires |opts| > 0 && opts[0].Some? && key(opts[0].value) == start
    requires AtKeys(Somes(opts[1..]), opts[1..], key, start + 1)
    requires KeysIncrease(Somes(opts[1..]), key)
    ensures KeysIncrease(Somes(opts), key)
  {
    var rest := Somes(opts[1..]);
    var r := Somes(opts);
    assert r == [opts[0].value] + rest;
    assert forall k :: 1 <= k < |r| ==> r[k] == rest[k - 1];
  }

  lemma SomesAtSkip<B>(opts: seq<Option<B>>, key: B -> int, start: int)
    requires |opts| > 0
    requires AtKeys(Somes(opts[1..]), opts[1..], key, start + 1)
    ensures AtKeys(Somes(opts[1..]), opts, key, start)
  {
    var r := Somes(opts[1..]);
    forall k | 0 <= k < |r|
      ensures start < key(r[k]) < start + |opts| && opts[key(r[k]) - start] == Some(r[k])
    {
      var p := key(r[k]) - start;
      assert opts[1..][p - 1] == opts[p];
    }
  }

  /** `[...new Set(xs)]`: each value once, at its first occurrence. */
  function Distinct<T(==)>(xs: seq<T>): (r: seq<T>)
    ensures NoDuplicates(r)
    ensures forall i :: 0 <= i < |r| ==> r[i] in xs
    ensures forall i :: 0 <= i < |xs| ==> xs[i] in r
    ensures |r| <= |xs|
  {
    if |xs| == 0 then []
    else
      var x := xs[|xs| - 1];
      var init := xs[..|xs| - 1];
      assert xs == init + [x];
      var r := Distinct(init);
      if x in r then r else r + [x]
  }

  /** `[...new Set(xs)].length` is the number of different values in `xs`. */
  lemma {:induction false} DistinctCountsValues<T>(xs: seq<T>)
    ensures |Distinct(xs)| == |set x | x in xs|
  {
    if |xs| > 0 {
      var x := xs[|xs| - 1];
      var init := xs[..|xs| - 1];
      assert xs == init + [x];
      DistinctCountsValues(init);
      var before := set y | y in init;
      var after := set y | y in xs;
      assert after == before + {x};
      var r0 := Distinct(init);
      assert x in r0 <==> x in init;
      if x in init {
        assert after == before;
      }
    } else {
      assert (set x | x in xs) == {};
    }
  }

  /** `[...new Set(xs)].length`: the number of different values, at least
      one for a non-empty list and never more than its length. */
  function DistinctCount<T(==)>(xs: seq<T>): (n: nat)
    ensures n == |set x | x in xs|
    ensures n <= |xs|
    ensures |xs| > 0 ==> n >= 1
  {
    DistinctCountsValues(xs);
    assert |xs| > 0 ==> xs[0] in Distinct(xs);
    |Distinct(xs)|
  }

  /** The position of the first occurrence of `x`. */
  function FirstIndex<T(==)>(xs: seq<T>, x: T): (i: nat)
    requires x in xs
    ensures i < |xs| && xs[i] == x && x !in xs[..i]
  {
    if xs[0] == x then 0
    else
      assert xs[1..][..FirstIndex(xs[1..], x)] == xs[1..1 + FirstIndex(xs[1..], x)];
      1 + FirstIndex(xs[1..], x)
  }

  lemma FirstIndexUnique<T>(xs: seq<T>, x: T, i: nat)
    requires i < |xs| && xs[i] == x && x !in xs[..i]
    ensures FirstIndex(xs, x) == i
  {
  }

  /** The distinct values come in the order of their first occurrence. */
  lemma {:induction false} DistinctFirstOccurrenceOrder<T>(xs: seq<T>)
    ensures forall i, j :: 0 <= i < j < |Distinct(xs)| ==>
      FirstIndex(xs, Distinct(xs)[i]) < FirstIndex(xs, Distinct(xs)[j])
  {
    if |xs| > 0 {
      var init := xs[..|xs| - 1];
      DistinctFirstOccurrenceOrder(init);
      DistinctOrderStep(xs);
    }
  }

  lemma DistinctOrderStep<T>(xs: seq<T>)
    requires |xs| > 0
    requires var init := xs[..|xs| - 1];
      forall i, j :: 0 <= i < j < |Distinct(init)| ==>
        FirstIndex(init, Distinct(init)[i]) < FirstIndex(init, Distinct(init)[j])
    ensures forall i, j :: 0 <= i < j < |Distinct(xs)| ==>
      FirstIndex(xs, Distinct(xs)[i]) < FirstIndex(xs, Distinct(xs)[j])
  {
    var x := xs[|xs| - 1];
    var init := xs[..|xs| - 1];
    assert xs == init + [x];
    var r := Distinct(xs);
    var r0 := Distinct(init);
    forall k | 0 <= k < |r0|
      ensures FirstIndex(xs, r0[k]) == FirstIndex(init, r0[k])
    {
      FirstIndexPrefix(xs, r0[k]);
    }
    if x !in r0 {
      assert r == r0 + [x];
      assert x !in init;
      assert xs[..|init|] == init;
      FirstIndexUnique(xs, x, |init|);
      forall i, j | 0 <= i < j < |r|
        ensures FirstIndex(xs, r[i]) < FirstIndex(xs, r[j])
      {
        assert r[i] == r0[i];
        if j < |r0| {
          assert r[j] == r0[j];
        }
      }
    } else {
      assert r == r0;
    }
  }

  /** A value that occurs before the last element keeps its first index. */
  lemma FirstIndexPrefix<T>(xs: seq<T>, y: T)
    requires |xs| > 0 && y in xs[..|xs| - 1]
    ensures y in xs && FirstIndex(xs, y) == FirstIndex(xs[..|xs| - 1], y)
  {
    var init := xs[..|xs| - 1];
    var k := FirstIndex(init, y);
    assert xs[..k] == init[..k];
    assert xs[k] == init[k];
    FirstIndexUnique(xs, y, k);
  }
}

=== FILE: csv.dfy ===
/** The delimited-text importer of the admin panel: the quoted-field line
    tokenizer (`parseCSVLine`) and the batch builder (`parseCSV`). */
module Csv {
  import opened Wrappers
  import opened Text
  import opened Numbers
  import opened Records
  import opened Collections

  /** Either quote character opens a quoted field. */
  predicate IsQuote(c: char) {
    c == '"' || c == '\''
  }

  /** The tokenizer as a state machine over the rest of the line. `quote` is
      the active quote character (`None` when outside quotes), `cur` the text
      of the field being read and `fields` the fields already finished.
      Outside quotes a quote character opens a quoted field (anywhere in the
      field); inside, the active quote doubled is one literal quote, alone it
      closes the quotes, and every other character is literal. Outside quotes
      the separator ends the field. Each finished field is trimmed. */
  function Scan(s: string, sep: char, quote: Option<char>, cur: string, fields: seq<string>): seq<string>
    decreases |s|
  {
    if |s| == 0 then fields + [Trim(cur)]
    else
      var c := s[0];
      if quote.None? && IsQuote(c) then Scan(s[1..], sep, Some(c), cur, fields)
      else if quote == Some(c) then
        if |s| > 1 && s[1] == c then Scan(s[2..], sep, quote, cur + [c], fields)
        else Scan(s[1..], sep, None, cur, fields)
      else if quote.None? && c == sep then Scan(s[1..], sep, None, [], fields + [Trim(cur)])
      else Scan(s[1..], sep, quote, cur + [c], fields)
  }

  /** The tokenizer only appends: it keeps the finished fields, adds one
      trimmed field per separator outside quotes and one for the end. */
  lemma {:induction false} ScanShape(s: string, sep: char, quote: Option<char>, cur: string, fields: seq<string>)
    ensures var r := Scan(s, sep, quote, cur, fields);
      && |r| == |fields| + 1 + OutsideSeparators(s, sep, quote)
      && r[..|fields|] == fields
      && forall k :: |fields| <= k < |r| ==> IsTrimmed(r[k])
    decreases |s|
  {
    if |s| > 0 {
      var c := s[0];
      if quote.None? && IsQuote(c) {
        ScanShape(s[1..], sep, Some(c), cur, fields);
      } else if quote == Some(c) {
        if |s| > 1 && s[1] == c {
          ScanShape(s[2..], sep, quote, cur + [c], fields);
        } else {
          ScanShape(s[1..], sep, None, cur, fields);
        }
      } else if quote.None? && c == sep {
        ScanShape(s[1..], sep, None, [], fields + [Trim(cur)]);
        var r := Scan(s[1..], sep, None, [], fields + [Trim(cur)]);
        assert r[..|fields|] == r[..|fields| + 1][..|fields|];
      } else {
        ScanShape(s[1..], sep, quote, cur + [c], fields);
      }
    }
  }

  /** The separators the tokenizer meets outside quotes, each of which ends a
      field. */
  function OutsideSeparators(s: string, sep: char, quote: Option<char>): nat
    decreases |s|
  {
    if |s| == 0 then 0
    else
      var c := s[0];
      if quote.None? && IsQuote(c) then OutsideSeparators(s[1..], sep, Some(c))
      else if quote == Some(c) then
        if |s| > 1 && s[1] == c then OutsideSeparators(s[2..], sep, quote)
        else OutsideSeparators(s[1..], sep, None)
      else if quote.None? && c == sep then 1 + OutsideSeparators(s[1..], sep, None)
      else OutsideSeparators(s[1..], sep, quote)
  }

  /** `parseCSVLine(line, separator)`: one more field than separators outside
      quotes, so never an empty list, and every field trimmed. */
  function ParseCSVLine(line: string, sep: char): (r: seq<string>)
    ensures |r| == OutsideSeparators(line, sep, None) + 1
    ensures forall k :: 0 <= k < |r| ==> IsTrimmed(r[k])
  {
    ScanShape(line, sep, None, [], []);
    Scan(line, sep, None, [], [])
  }

  /** A separator is only counted where it occurs, so a line never has more
      fields than separators plus one. */
  lemma {:induction false} OutsideSeparatorsAtMostCount(s: string, sep: char, quote: Option<char>)
    ensures OutsideSeparators(s, sep, quote) <= Count(sep, s)
    decreases |s|
  {
    if |s| > 0 {
      var c := s[0];
      if quote == Some(c) && |s| > 1 && s[1] == c {
        OutsideSeparatorsAtMostCount(s[2..], sep, quote);
        assert s[1..][1..] == s[2..];
      } else if quote.None? && IsQuote(c) {
        OutsideSeparatorsAtMostCount(s[1..], sep, Some(c));
      } else if quote == Some(c) {
        OutsideSeparatorsAtMostCount(s[1..], sep, None);
      } else if quote.None? && c == sep {
        OutsideSeparatorsAtMostCount(s[1..], sep, None);
      } else {
        OutsideSeparatorsAtMostCount(s[1..], sep, quote);
      }
    }
  }

  /** The tokenizer written as the source's `for` loop, whose escape branch
      skips the second quote by advancing the index inside the body; it
      computes the same fields as the state machine. */
  method ParseCSVLineLoop(line: string, sep: char) returns (result: seq<string>)
    ensures result == ParseCSVLine(line, sep)
  {
    result := [];
    var current: string := [];
    var inQuotes := false;
    var quoteChar: Option<char> := None;
    var i := 0;
    while i < |line|
      invariant 0 <= i <= |line|
      invariant inQuotes <==> quoteChar.Some?
      invariant Scan(line[i..], sep, quoteChar, current, result) == ParseCSVLine(line, sep)
      decreases |line| - i
    {
      var c := line[i];
      var next: Option<char> := if i + 1 < |line| then Some(line[i + 1]) else None;
      assert line[i..][1..] == line[i + 1..];
      if IsQuote(c) && !inQuotes {
        inQuotes := true;
        quoteChar := Some(c);
      } else if quoteChar == Some(c) && inQuotes {
        if next == quoteChar {
          assert line[i..][2..] == line[i + 2..];
          current := current + [c];
          i := i + 1;
        } else {
          inQuotes := false;
          quoteChar := None;
        }
      } else if c == sep && !inQuotes {
        result := result + [Trim(current)];
        current := [];
      } else {
        current := current + [c];
      }
      i := i + 1;
    }
    result := result + [Trim(current)];
  }

  // ----- What quoting means -----

  /** Doubles every occurrence of the quote character `q` in `v`. */
  function Escape(v: string, q: char): (r: string)
    ensures |r| == |v| + Count(q, v)
  {
    if |v| == 0 then []
    else (if v[0] == q then [q, q] else [v[0]]) + Escape(v[1..], q)
  }

  /** `v` written as a quoted field. */
  function QuoteField(v: string, q: char): string {
    [q] + Escape(v, q) + [q]
  }

  /** Inside quotes, escaped content followed by the closing quote adds exactly
      `v` to the field: separators and the other quote kind are literal and a
      doubled quote is one quote. */
  lemma {:induction false} ScanEscaped(v: string, q: char, rest: string, sep: char, cur: string, fields: seq<string>)
    requires IsQuote(q)
    requires |rest| == 0 || rest[0] != q
    ensures Scan(Escape(v, q) + [q] + rest, sep, Some(q), cur, fields)
         == Scan(rest, sep, None, cur + v, fields)
    decreases |v|
  {
    var s := Escape(v, q) + [q] + rest;
    if |v| == 0 {
      assert s == [q] + rest;
      assert s[1..] == rest;
      assert cur + v == cur;
    } else {
      ScanEscaped(v[1..], q, rest, sep, cur + [v[0]], fields);
      EscapedStep(v, q, rest, sep, cur, fields);
      assert cur + [v[0]] + v[1..] == cur + v by {
        AppendAssociative(cur, [v[0]], v[1..]);
        assert [v[0]] + v[1..] == v;
      }
    }
  }

  /** Inside quotes, the first character of the escaped value joins the field. */
  lemma EscapedStep(v: string, q: char, rest: string, sep: char, cur: string, fields: seq<string>)
    requires IsQuote(q) && |v| > 0
    ensures Scan(Escape(v, q) + [q] + rest, sep, Some(q), cur, fields)
         == Scan(Escape(v[1..], q) + [q] + rest, sep, Some(q), cur + [v[0]], fields)
  {
    var s := Escape(v, q) + [q] + rest;
    var tail := Escape(v[1..], q) + [q] + rest;
    if v[0] == q {
      assert s == [q, q] + tail;
      assert s[2..] == tail;
    } else {
      assert s == [v[0]] + tail;
      assert s[1..] == tail;
    }
  }

  /** A quoted field, wherever it opens in the field, contributes its value
      and leaves the tokenizer outside quotes. */
  lemma ScanQuotedField(v: string, q: char, rest: string, sep: char, cur: string, fields: seq<string>)
    requires IsQuote(q)
    requires |rest| == 0 || rest[0] != q
    ensures Scan(QuoteField(v, q) + rest, sep, None, cur, fields)
         == Scan(rest, sep, None, cur + v, fields)
  {
    var s := QuoteField(v, q) + rest;
    assert s[1..] == Escape(v, q) + [q] + rest;
    ScanEscaped(v, q, rest, sep, cur, fields);
  }

  /** The line a writer of this format produces from `values`: each value
      quoted with `q`, joined by the separator. */
  function EncodeLine(values: seq<string>, q: char, sep: char): string {
    JoinWith([sep], seq(|values|, i requires 0 <= i < |values| => QuoteField(values[i], q)))
  }

  lemma EncodeLineSingle(values: seq<string>, q: char, sep: char)
    requires |values| == 1
    ensures EncodeLine(values, q, sep) == QuoteField(values[0], q) + []
  {
  }

  lemma EncodeLineCons(values: seq<string>, q: char, sep: char)
    requires |values| >= 2
    ensures EncodeLine(values, q, sep) == QuoteField(values[0], q) + ([sep] + EncodeLine(values[1..], q, sep))
  {
    var quoted := seq(|values|, i requires 0 <= i < |values| => QuoteField(values[i], q));
    assert quoted[1..] == seq(|values| - 1, i requires 0 <= i < |values| - 1 => QuoteField(values[1..][i], q));
  }

  /** Scanning an encoded line appends the trimmed values. */
  lemma {:induction false} ScanEncoded(values: seq<string>, q: char, sep: char, fields: seq<string>)
    requires |values| >= 1
    requires IsQuote(q) && !IsQuote(sep)
    ensures Scan(EncodeLine(values, q, sep), sep, None, [], fields) == fields + MapTrim(values)
    decreases |values|
  {
    if |values| == 1 {
      ScanEncodedLast(values, q, sep, fields);
    } else {
      ScanEncoded(values[1..], q, sep, fields + [Trim(values[0])]);
      ScanEncodedFirst(values, q, sep, fields);
    }
  }

  lemma ScanEncodedLast(values: seq<string>, q: char, sep: char, fields: seq<string>)
    requires |values| == 1
    requires IsQuote(q)
    ensures Scan(EncodeLine(values, q, sep), sep, None, [], fields) == fields + MapTrim(values)
  {
    var v := values[0];
    assert EncodeLine(values, q, sep) == QuoteField(v, q) + [] by {
      EncodeLineSingle(values, q, sep);
    }
    ScanQuotedField(v, q, [], sep, [], fields);
    assert [] + v == v;
    assert Scan([], sep, None, v, fields) == fields + [Trim(v)];
    assert MapTrim(values) == [Trim(v)] by {
      MapTrimCons(values);
      assert values[1..] == [];
    }
  }

  /** The first quoted value and the separator after it finish one field. */
  lemma ScanEncodedFirst(values: seq<string>, q: char, sep: char, fields: seq<string>)
    requires |values| >= 2
    requires IsQuote(q) && !IsQuote(sep)
    requires Scan(EncodeLine(values[1..], q, sep), sep, None, [], fields + [Trim(values[0])])
      == fields + [Trim(values[0])] + MapTrim(values[1..])
    ensures Scan(EncodeLine(values, q, sep), sep, None, [], fields) == fields + MapTrim(values)
  {
    var v := values[0];
    var tail := EncodeLine(values[1..], q, sep);
    var line := EncodeLine(values, q, sep);
    assert line == QuoteField(v, q) + ([sep] + tail) by {
      EncodeLineCons(values, q, sep);
    }
    QuotedThenSeparator(v, q, sep, tail, fields);
    AppendTrimmed(fields, values);
  }

  lemma AppendTrimmed(fields: seq<string>, values: seq<string>)
    requires |values| > 0
    ensures fields + [Trim(values[0])] + MapTrim(values[1..]) == fields + MapTrim(values)
  {
    MapTrimCons(values);
  }

  /** A quoted value followed by the separator finishes one field holding the
      trimmed value. */
  lemma QuotedThenSeparator(v: string, q: char, sep: char, tail: string, fields: seq<string>)
    requires IsQuote(q) && !IsQuote(sep)
    ensures Scan(QuoteField(v, q) + ([sep] + tail), sep, None, [], fields)
         == Scan(tail, sep, None, [], fields + [Trim(v)])
  {
    ScanQuotedField(v, q, [sep] + tail, sep, [], fields);
    assert [] + v == v;
    ScanSeparatorStep([sep] + tail, sep, v, fields);
    assert ([sep] + tail)[1..] == tail;
  }

  /** Round trip: quoting any values (with either quote character) and joining
      them with a separator that is not a quote tokenizes back to the trimmed
      values, whatever separators and quotes the values contain. */
  lemma QuotedLineRoundTrip(values: seq<string>, q: char, sep: char)
    requires |values| >= 1
    requires IsQuote(q) && !IsQuote(sep)
    ensures ParseCSVLine(EncodeLine(values, q, sep), sep) == MapTrim(values)
  {
    ScanEncoded(values, q, sep, []);
    assert [] + MapTrim(values) == MapTrim(values);
  }

  /** An unterminated quote takes the rest of the line into the last field,
      with no error. */
  lemma {:induction false} UnterminatedQuote(rest: string, q: char, sep: char, cur: string, fields: seq<string>)
    requires q !in rest
    ensures Scan(rest, sep, Some(q), cur, fields) == fields + [Trim(cur + rest)]
    decreases |rest|
  {
    if |rest| == 0 {
      assert cur + rest == cur;
    } else {
      UnterminatedQuote(rest[1..], q, sep, cur + [rest[0]], fields);
      assert cur + [rest[0]] + rest[1..] == cur + rest;
    }
  }

  /** Outside quotes, a separator that is not a quote character ends the field. */
  lemma ScanSeparatorStep(s: string, sep: char, cur: string, fields: seq<string>)
    requires |s| > 0 && s[0] == sep && !IsQuote(sep)
    ensures Scan(s, sep, None, cur, fields) == Scan(s[1..], sep, None, [], fields + [Trim(cur)])
  {
  }

  /** Outside quotes, any other character that is not a quote joins the field. */
  lemma ScanLiteralStep(s: string, sep: char, cur: string, fields: seq<string>)
    requires |s| > 0 && s[0] != sep && !IsQuote(s[0])
    ensures Scan(s, sep, None, cur, fields) == Scan(s[1..], sep, None, cur + [s[0]], fields)
  {
  }

  /** Without quote characters the tokenizer is `line.split(sep)` with each
      piece trimmed. */
  lemma {:induction false} ScanPlain(s: string, sep: char, cur: string, fields: seq<string>)
    requires forall i :: 0 <= i < |s| ==> !IsQuote(s[i])
    ensures Scan(s, sep, None, cur, fields) == fields + PlainFields(s, sep, cur)
    decreases |s|
  {
    if |s| == 0 {
      assert Split(s, sep) == [[]];
      assert cur + [] == cur;
      assert PlainFields(s, sep, cur) == [Trim(cur)];
    } else if s[0] == sep {
      ScanPlain(s[1..], sep, [], fields + [Trim(cur)]);
      ScanPlainSeparator(s, sep, cur, fields);
    } else {
      ScanPlain(s[1..], sep, cur + [s[0]], fields);
      ScanPlainLiteral(s, sep, cur, fields);
    }
  }

  lemma ScanPlainSeparator(s: string, sep: char, cur: string, fields: seq<string>)
    requires |s| > 0 && s[0] == sep && !IsQuote(sep)
    requires Scan(s[1..], sep, None, [], fields + [Trim(cur)]) == fields + [Trim(cur)] + PlainFields(s[1..], sep, [])
    ensures Scan(s, sep, None, cur, fields) == fields + PlainFields(s, sep, cur)
  {
    var acc := fields + [Trim(cur)];
    var later := PlainFields(s[1..], sep, []);
    assert Scan(s, sep, None, cur, fields) == Scan(s[1..], sep, None, [], acc) by {
      ScanSeparatorStep(s, sep, cur, fields);
    }
    assert PlainFields(s, sep, cur) == [Trim(cur)] + later by {
      PlainFieldsSeparator(s, sep, cur);
    }
    AppendAssociative(fields, [Trim(cur)], later);
  }

  lemma ScanPlainLiteral(s: string, sep: char, cur: string, fields: seq<string>)
    requires |s| > 0 && s[0] != sep && !IsQuote(s[0])
    requires Scan(s[1..], sep, None, cur + [s[0]], fields) == fields + PlainFields(s[1..], sep, cur + [s[0]])
    ensures Scan(s, sep, None, cur, fields) == fields + PlainFields(s, sep, cur)
  {
    ScanLiteralStep(s, sep, cur, fields);
    PlainFieldsLiteral(s, sep, cur);
  }

  /** The trimmed pieces of `s.split(sep)`, with `cur` put in front of the first. */
  function PlainFields(s: string, sep: char, cur: string): seq<string> {
    var parts := Split(s, sep);
    [Trim(cur + parts[0])] + MapTrim(parts[1..])
  }

  lemma PlainFieldsSeparator(s: string, sep: char, cur: string)
    requires |s| > 0 && s[0] == sep
    ensures PlainFields(s, sep, cur) == [Trim(cur)] + PlainFields(s[1..], sep, [])
  {
    var rest := Split(s[1..], sep);
    var parts := Split(s, sep);
    assert parts == [[]] + rest;
    assert parts[1..] == rest;
    assert [] + rest[0] == rest[0];
    assert cur + parts[0] == cur;
    MapTrimCons(rest);
  }

  lemma PlainFieldsLiteral(s: string, sep: char, cur: string)
    requires |s| > 0 && s[0] != sep
    ensures PlainFields(s, sep, cur) == PlainFields(s[1..], sep, cur + [s[0]])
  {
    var rest := Split(s[1..], sep);
    var parts := Split(s, sep);
    assert parts == [[s[0]] + rest[0]] + rest[1..];
    assert cur + [s[0]] + rest[0] == cur + parts[0];
  }

  lemma QuoteFreeLine(line: string, sep: char)
    requires forall i :: 0 <= i < |line| ==> !IsQuote(line[i])
    ensures ParseCSVLine(line, sep) == MapTrim(Split(line, sep))
  {
    ScanPlain(line, sep, [], []);
    var parts := Split(line, sep);
    assert [] + parts[0] == parts[0];
    MapTrimCons(parts);
    assert [] + PlainFields(line, sep, []) == PlainFields(line, sep, []);
  }

  // ----- The batch -----

  /** The separator for the whole batch: `;` when the first line of the
      trimmed content contains one, `,` otherwise. */
  function DetectSeparator(content: string): (sep: char)
    ensures sep == ';' || sep == ','
  {
    var lines := Split(Trim(content), '\n');
    if ';' in lines[0] then ';' else ','
  }

  /** The first line is the text before the first line break. */
  lemma SeparatorFromFirstLine(content: string)
    ensures DetectSeparator(content) == ';' <==> ';' in Before(Trim(content), '\n')
  {
    SplitFirst(Trim(content), '\n');
  }

  /** The record for a line's columns: the first five positionally (`|| ''`
      leaves a string column as it is) and the sixth read with
      `parseInt(cols[5]) || 0`, where a missing sixth column is
      `parseInt(undefined)`. */
  function FromColumns(cols: seq<string>): QuestionRecord
    requires |cols| >= 5
  {
    var position := if |cols| > 5 then cols[5] else "undefined";
    QuestionRecord(cols[0], cols[1], cols[2], cols[3], cols[4], OrZero(ParseInt(position)))
  }

  /** The order position is 0 when the sixth column is missing or not a
      number, and the number itself when the column is a decimal numeral. */
  lemma OrderPositionColumn(cols: seq<string>)
    requires |cols| >= 5
    ensures |cols| == 5 ==> FromColumns(cols).orderPosition == 0
    ensures |cols| > 5 && ParseInt(cols[5]).None? ==> FromColumns(cols).orderPosition == 0
    ensures forall n: int :: |cols| > 5 && cols[5] == Decimal(n) ==> FromColumns(cols).orderPosition == n
  {
    ParseIntUndefined();
    forall n: int | |cols| > 5 && cols[5] == Decimal(n)
      ensures FromColumns(cols).orderPosition == n
    {
      ParseIntDecimal(n);
    }
  }

  /** The record one line gives, if any: blank lines are skipped and a line
      must tokenize to at least five fields. */
  function CsvLine(line: string, sep: char): (r: Option<QuestionRecord>)
    ensures r.Some? <==> !IsBlank(line) && OutsideSeparators(Trim(line), sep, None) >= 4
    ensures r.Some? ==>
      && IsTrimmed(r.value.seniority) && IsTrimmed(r.value.stack) && IsTrimmed(r.value.category)
      && IsTrimmed(r.value.categoryGoal) && IsTrimmed(r.value.question)
  {
    var t := Trim(line);
    if t == [] then None
    else
      var cols := ParseCSVLine(t, sep);
      if |cols| >= 5 then Some(FromColumns(cols)) else None
  }

  /** The records of a batch of lines, in line order: every record comes
      from a line, and every accepted line gives its record. */
  function CsvRecords(lines: seq<string>, sep: char): (r: seq<QuestionRecord>)
    ensures |r| <= |lines|
    ensures forall k :: 0 <= k < |r| ==>
      exists i :: 0 <= i < |lines| && CsvLine(lines[i], sep) == Some(r[k])
    ensures forall i :: 0 <= i < |lines| && CsvLine(lines[i], sep).Some? ==>
      CsvLine(lines[i], sep).value in r
  {
    FilterMap(line => CsvLine(line, sep), lines)
  }

  /** `parseCSV(content)`: one separator for all lines, chosen from the first. */
  function ParseCSV(content: string): seq<QuestionRecord> {
    CsvRecords(Split(Trim(content), '\n'), DetectSeparator(content))
  }

  /** Each line contributes on its own and in place: the records of two runs
      of lines are the records of the first followed by those of the second. */
  lemma CsvRecordsAppend(a: seq<string>, b: seq<string>, sep: char)
    ensures CsvRecords(a + b, sep) == CsvRecords(a, sep) + CsvRecords(b, sep)
  {
    FilterMapAppend(line => CsvLine(line, sep), a, b);
  }

  /** When every line is accepted there is exactly one record per line, the
      i-th record built from the i-th line. */
  lemma CsvAllAccepted(lines: seq<string>, sep: char)
    requires forall i :: 0 <= i < |lines| ==> CsvLine(lines[i], sep).Some?
    ensures |CsvRecords(lines, sep)| == |lines|
    ensures forall i :: 0 <= i < |lines| ==> CsvRecords(lines, sep)[i] == CsvLine(lines[i], sep).value
  {
    FilterMapAll(line => CsvLine(line, sep), lines);
  }

  /** Empty or blank content yields no records, and no error. */
  lemma ParseCSVBlank(content: string)
    requires IsBlank(content)
    ensures ParseCSV(content) == []
  {
    var lines := Split(Trim(content), '\n');
    assert lines == [[]];
    assert IsBlank(lines[0]);
    assert CsvRecords(lines[1..], DetectSeparator(content)) == [];
  }

  /** A line of four bare separators becomes a record whose fields are all
      empty: the builder does not check for required fields. */
  lemma EmptyFieldsAccepted()
    ensures CsvLine(";;;;", ';') == Some(QuestionRecord("", "", "", "", "", 0))
  {
    var cols := ["", "", "", "", ""];
    FourSeparatorsLine();
    TrimOfTrimmed(";;;;");
    LineOfColumns(";;;;", ';', cols);
    ParseIntUndefined();
    assert FromColumns(cols) == QuestionRecord("", "", "", "", "", 0);
  }

  /** A trimmed line with at least five columns gives the record built from
      them. */
  lemma LineOfColumns(line: string, sep: char, cols: seq<string>)
    requires line != [] && Trim(line) == line
    requires ParseCSVLine(line, sep) == cols && |cols| >= 5
    ensures CsvLine(line, sep) == Some(FromColumns(cols))
  {
  }

  lemma FourSeparatorsLine()
    ensures ParseCSVLine(";;;;", ';') == ["", "", "", "", ""]
  {
    var line := ";;;;";
    assert forall i :: 0 <= i < |line| ==> !IsQuote(line[i]);
    QuoteFreeLine(line, ';');
    FourSeparators();
    TrimEmpty();
  }

  lemma FourSeparators()
    ensures Split(";;;;", ';') == ["", "", "", "", ""]
  {
    SplitLeadingSeparator(";;;", ';');
    SplitLeadingSeparator(";;", ';');
    SplitLeadingSeparator(";", ';');
    SplitLeadingSeparator("", ';');
    assert ";;;;" == [';'] + ";;;";
    assert ";;;" == [';'] + ";;";
    assert ";;" == [';'] + ";";
    assert ";" == [';'] + "";
  }

  lemma SplitLeadingSeparator(t: string, sep: char)
    ensures Split([sep] + t, sep) == [[]] + Split(t, sep)
  {
    assert ([sep] + t)[1..] == t;
  }

  lemma TrimEmpty()
    ensures MapTrim(["", "", "", "", ""]) == ["", "", "", "", ""]
  {
    assert Trim("") == "";
  }
}

=== FILE: grouping.dfy ===
/** How `/api/questions` turns the fetched rows into category groups: a
    `forEach` that looks each row's category up in a plain object, creates a
    group the first time and appends the question to it. */
module Grouping {
  import opened Wrappers
  import opened Collections
  import opened Records

  /** One entry of the `categories` list of the answer. */
  datatype Group = Group(title: string, goal: string, items: seq<string>)

  function Categories(rows: seq<StoredQuestion>): (r: seq<string>)
    ensures |r| == |rows| && forall i :: 0 <= i < |rows| ==> r[i] == rows[i].category
  {
    seq(|rows|, i requires 0 <= i < |rows| => rows[i].category)
  }

  function Titles(gs: seq<Group>): (r: seq<string>)
    ensures |r| == |gs| && forall i :: 0 <= i < |gs| ==> r[i] == gs[i].title
  {
    seq(|gs|, i requires 0 <= i < |gs| => gs[i].title)
  }

  // ----- What the grouping should be -----

  /** The questions of the rows in category `c`, in row order. */
  function QuestionsIn(rows: seq<StoredQuestion>, c: string): seq<string> {
    if |rows| == 0 then []
    else
      var last := rows[|rows| - 1];
      QuestionsIn(rows[..|rows| - 1], c) + (if last.category == c then [last.question] else [])
  }

  /** The goal of the first row in category `c`. */
  function FirstGoal(rows: seq<StoredQuestion>, c: string): string
    requires c in Categories(rows)
  {
    rows[FirstIndex(Categories(rows), c)].categoryGoal
  }

  /** The groups as a reference definition: one per distinct category, in
      order of first occurrence, with the goal of its first row and the
      questions of its rows. */
  function GroupsOf(rows: seq<StoredQuestion>): (gs: seq<Group>)
    ensures Titles(gs) == Distinct(Categories(rows))
  {
    var ts := Distinct(Categories(rows));
    var gs := seq(|ts|, i requires 0 <= i < |ts| => Group(ts[i], FirstGoal(rows, ts[i]), QuestionsIn(rows, ts[i])));
    assert Titles(gs) == ts;
    gs
  }

  // ----- What the handler does -----

  /** The position of the group titled `t`, if there is one. */
  function GroupIndex(gs: seq<Group>, t: string): (r: Option<nat>)
    ensures r.Some? ==> r.value < |gs| && gs[r.value].title == t
    ensures r.None? ==> forall i :: 0 <= i < |gs| ==> gs[i].title != t
  {
    if |gs| == 0 then None
    else if gs[0].title == t then Some(0)
    else match GroupIndex(gs[1..], t)
      case None => None
      case Some(i) => Some(i + 1)
  }

  /** One step of the `forEach`, with the lookup reading only the groups
      created so far: a new group for a new category, otherwise the question
      is appended to the category's group. */
  function AddRow(gs: seq<Group>, row: StoredQuestion): (r: seq<Group>)
    ensures |r| == |gs| || |r| == |gs| + 1
  {
    match GroupIndex(gs, row.category)
    case Some(i) => gs[i := gs[i].(items := gs[i].items + [row.question])]
    case None => gs + [Group(row.category, row.categoryGoal, [row.question])]
  }

  /** The `forEach` over all rows. */
  function Grouped(rows: seq<StoredQuestion>): seq<Group> {
    if |rows| == 0 then [] else AddRow(Grouped(rows[..|rows| - 1]), rows[|rows| - 1])
  }

  // ----- The fold computes the reference groups -----

  lemma CategoriesSnoc(rows: seq<StoredQuestion>)
    requires |rows| > 0
    ensures Categories(rows) == Categories(rows[..|rows| - 1]) + [rows[|rows| - 1].category]
  {
  }

  /** A row added at the end leaves the first goal of an earlier category
      alone, and gives a new category its own goal. */
  lemma FirstGoalSnoc(rows: seq<StoredQuestion>, c: string)
    requires |rows| > 0 && c in Categories(rows)
    ensures var init := rows[..|rows| - 1];
      if c in Categories(init) then FirstGoal(rows, c) == FirstGoal(init, c)
      else FirstGoal(rows, c) == rows[|rows| - 1].categoryGoal
  {
    var init := rows[..|rows| - 1];
    var cs := Categories(rows);
    CategoriesSnoc(rows);
    if c in Categories(init) {
      var k := FirstIndex(Categories(init), c);
      assert cs[..k] == Categories(init)[..k];
      FirstIndexUnique(cs, c, k);
    } else {
      assert cs[..|init|] == Categories(init);
      FirstIndexUnique(cs, c, |init|);
    }
  }

  /** A category no row has collects no question. */
  lemma {:induction false} QuestionsInAbsent(rows: seq<StoredQuestion>, c: string)
    requires c !in Categories(rows)
    ensures QuestionsIn(rows, c) == []
  {
    if |rows| > 0 {
      CategoriesSnoc(rows);
      QuestionsInAbsent(rows[..|rows| - 1], c);
    }
  }

  lemma GroupsOfEntry(rows: seq<StoredQuestion>, j: nat)
    requires j < |Distinct(Categories(rows))|
    ensures var d := Distinct(Categories(rows));
      && |GroupsOf(rows)| == |d|
      && d[j] in Categories(rows)
      && GroupsOf(rows)[j] == Group(d[j], FirstGoal(rows, d[j]), QuestionsIn(rows, d[j]))
  {
  }

  /** A row added at the end changes the entry of an earlier category only
      by its question, and only for its own category. */
  lemma EntrySnoc(rows: seq<StoredQuestion>, t: string)
    requires |rows| > 0
    requires t in Categories(rows[..|rows| - 1])
    ensures var init := rows[..|rows| - 1];
      var row := rows[|rows| - 1];
      && t in Categories(rows)
      && FirstGoal(rows, t) == FirstGoal(init, t)
      && QuestionsIn(rows, t) == QuestionsIn(init, t) + (if row.category == t then [row.question] else [])
  {
    CategoriesSnoc(rows);
    FirstGoalSnoc(rows, t);
  }

  /** A row added at the end adds its category to the distinct ones exactly
      when it is new. */
  lemma DistinctCategoriesSnoc(rows: seq<StoredQuestion>)
    requires |rows| > 0
    ensures var init := rows[..|rows| - 1];
      var c := rows[|rows| - 1].category;
      Distinct(Categories(rows))
        == if c in Categories(init) then Distinct(Categories(init)) else Distinct(Categories(init)) + [c]
  {
    var init := rows[..|rows| - 1];
    var c := rows[|rows| - 1].category;
    CategoriesSnoc(rows);
    assert Categories(rows)[..|rows| - 1] == Categories(init);
    assert c in Distinct(Categories(init)) <==> c in Categories(init);
  }

  /** The step of the fold for a category that already has a group. */
  lemma AddRowExisting(rows: seq<StoredQuestion>)
    requires |rows| > 0
    requires var init := rows[..|rows| - 1];
      Grouped(init) == GroupsOf(init) && rows[|rows| - 1].category in Categories(init)
    ensures Grouped(rows) == GroupsOf(rows)
  {
    var init := rows[..|rows| - 1];
    var row := rows[|rows| - 1];
    var g0 := GroupsOf(init);
    DistinctCategoriesSnoc(rows);
    var i := GroupIndex(g0, row.category).value;
    assert Grouped(rows) == g0[i := g0[i].(items := g0[i].items + [row.question])];
    assert Titles(g0)[i] == row.category;
    ExistingEntries(rows, i);
  }

  /** The entries of the reference groups when the last row's category is
      already the `i`-th: only that entry gains the row's question. */
  lemma ExistingEntries(rows: seq<StoredQuestion>, i: nat)
    requires |rows| > 0
    requires var init := rows[..|rows| - 1];
      && Distinct(Categories(rows)) == Distinct(Categories(init))
      && i < |Distinct(Categories(init))|
      && Distinct(Categories(init))[i] == rows[|rows| - 1].category
    ensures var init := rows[..|rows| - 1];
      var g0 := GroupsOf(init);
      i < |g0| && GroupsOf(rows) == g0[i := g0[i].(items := g0[i].items + [rows[|rows| - 1].question])]
  {
    var init := rows[..|rows| - 1];
    var g0 := GroupsOf(init);
    var d := Distinct(Categories(init));
    GroupsOfEntry(init, i);
    GroupsOfEntry(rows, i);
    forall j | 0 <= j < |d|
      ensures GroupsOf(rows)[j] == g0[i := g0[i].(items := g0[i].items + [rows[|rows| - 1].question])][j]
    {
      ExistingEntry(rows, i, j);
    }
    SameEntries(GroupsOf(rows), g0[i := g0[i].(items := g0[i].items + [rows[|rows| - 1].question])]);
  }

  lemma SameEntries(a: seq<Group>, b: seq<Group>)
    requires |a| == |b| && forall j :: 0 <= j < |a| ==> a[j] == b[j]
    ensures a == b
  {
  }

  lemma ExistingEntry(rows: seq<StoredQuestion>, i: nat, j: nat)
    requires |rows| > 0
    requires var init := rows[..|rows| - 1];
      && Distinct(Categories(rows)) == Distinct(Categories(init))
      && i < |Distinct(Categories(init))| && j < |Distinct(Categories(init))|
      && Distinct(Categories(init))[i] == rows[|rows| - 1].category
    ensures var init := rows[..|rows| - 1];
      var g0 := GroupsOf(init);
      var q := rows[|rows| - 1].question;
      && j < |g0| && j < |GroupsOf(rows)|
      && GroupsOf(rows)[j] == if j == i then g0[j].(items := g0[j].items + [q]) else g0[j]
  {
    var init := rows[..|rows| - 1];
    var d := Distinct(Categories(init));
    GroupsOfEntry(rows, j);
    GroupsOfEntry(init, j);
    EntrySnoc(rows, d[j]);
    assert j != i ==> d[j] != d[i];
  }

  /** The step of the fold for a category seen for the first time. */
  lemma AddRowNew(rows: seq<StoredQuestion>)
    requires |rows| > 0
    requires var init := rows[..|rows| - 1];
      Grouped(init) == GroupsOf(init) && rows[|rows| - 1].category !in Categories(init)
    ensures Grouped(rows) == GroupsOf(rows)
  {
    var init := rows[..|rows| - 1];
    var row := rows[|rows| - 1];
    var c := row.category;
    var g0 := GroupsOf(init);
    DistinctCategoriesSnoc(rows);
    NoGroupYet(g0, Distinct(Categories(init)), c);
    assert Grouped(rows) == AddRow(g0, row);
    assert AddRow(g0, row) == g0 + [Group(c, row.categoryGoal, [row.question])];
    NewEntries(rows);
  }

  /** A title that is not among the titles has no group. */
  lemma NoGroupYet(gs: seq<Group>, ts: seq<string>, c: string)
    requires Titles(gs) == ts && c !in ts
    ensures GroupIndex(gs, c).None?
  {
  }

  /** The entries of the reference groups once a new category is appended:
      the earlier ones updated by the snoc, and the new one last. */
  lemma NewEntries(rows: seq<StoredQuestion>)
    requires |rows| > 0
    requires var init := rows[..|rows| - 1];
      Distinct(Categories(rows)) == Distinct(Categories(init)) + [rows[|rows| - 1].category]
      && rows[|rows| - 1].category !in Categories(init)
    ensures var init := rows[..|rows| - 1];
      var row := rows[|rows| - 1];
      GroupsOf(rows) == GroupsOf(init) + [Group(row.category, row.categoryGoal, [row.question])]
  {
    var init := rows[..|rows| - 1];
    var row := rows[|rows| - 1];
    var c := row.category;
    var d := Distinct(Categories(init));
    var expected := GroupsOf(rows);
    var actual := GroupsOf(init) + [Group(c, row.categoryGoal, [row.question])];
    assert |expected| == |Titles(expected)| == |d| + 1;
    assert |actual| == |Titles(GroupsOf(init))| + 1 == |d| + 1;
    forall j | 0 <= j < |d| + 1
      ensures actual[j] == expected[j]
    {
      if j < |d| {
        EarlierEntry(rows, j);
      } else {
        LastEntry(rows);
      }
    }
  }

  lemma EarlierEntry(rows: seq<StoredQuestion>, j: nat)
    requires |rows| > 0
    requires var init := rows[..|rows| - 1];
      Distinct(Categories(rows)) == Distinct(Categories(init)) + [rows[|rows| - 1].category]
      && rows[|rows| - 1].category !in Categories(init)
      && j < |Distinct(Categories(init))|
    ensures var init := rows[..|rows| - 1];
      j < |GroupsOf(init)| && j < |GroupsOf(rows)| && GroupsOf(rows)[j] == GroupsOf(init)[j]
  {
    var init := rows[..|rows| - 1];
    var d := Distinct(Categories(init));
    GroupsOfEntry(rows, j);
    GroupsOfEntry(init, j);
    EntrySnoc(rows, d[j]);
  }

  lemma LastEntry(rows: seq<StoredQuestion>)
    requires |rows| > 0
    requires var init := rows[..|rows| - 1];
      Distinct(Categories(rows)) == Distinct(Categories(init)) + [rows[|rows| - 1].category]
      && rows[|rows| - 1].category !in Categories(init)
    ensures var init := rows[..|rows| - 1];
      var row := rows[|rows| - 1];
      var j := |Distinct(Categories(init))|;
      j < |GroupsOf(rows)| && GroupsOf(rows)[j] == Group(row.category, row.categoryGoal, [row.question])
  {
    var init := rows[..|rows| - 1];
    var c := rows[|rows| - 1].category;
    GroupsOfEntry(rows, |Distinct(Categories(init))|);
    CategoriesSnoc(rows);
    FirstGoalSnoc(rows, c);
    QuestionsInAbsent(init, c);
  }

  /** The handler's fold builds exactly the reference groups. */
  lemma {:induction false} GroupedIsGroupsOf(rows: seq<StoredQuestion>)
    ensures Grouped(rows) == GroupsOf(rows)
  {
    if |rows| == 0 {
      assert Distinct(Categories(rows)) == [];
    } else {
      GroupedIsGroupsOf(rows[..|rows| - 1]);
      if rows[|rows| - 1].category in Categories(rows[..|rows| - 1]) {
        AddRowExisting(rows);
      } else {
        AddRowNew(rows);
      }
    }
  }

  // ----- Every row lands in exactly one group -----

  function TotalItems(gs: seq<Group>): nat {
    if |gs| == 0 then 0 else |gs[0].items| + TotalItems(gs[1..])
  }

  lemma {:induction false} TotalItemsAppend(gs: seq<Group>, g: Group)
    ensures TotalItems(gs + [g]) == TotalItems(gs) + |g.items|
  {
    if |gs| > 0 {
      TotalItemsAppend(gs[1..], g);
      assert (gs + [g])[1..] == gs[1..] + [g];
    }
  }

  lemma {:induction false} TotalItemsUpdate(gs: seq<Group>, i: nat, g: Group)
    requires i < |gs|
    ensures TotalItems(gs[i := g]) == TotalItems(gs) - |gs[i].items| + |g.items|
  {
    if i > 0 {
      TotalItemsUpdate(gs[1..], i - 1, g);
      assert gs[i := g][1..] == gs[1..][i - 1 := g];
    } else {
      assert gs[i := g][1..] == gs[1..];
    }
  }

  /** The groups hold as many questions as there were rows. */
  lemma {:induction false} TotalItemsIsRowCount(rows: seq<StoredQuestion>)
    ensures TotalItems(Grouped(rows)) == |rows|
  {
    if |rows| > 0 {
      var init := rows[..|rows| - 1];
      var row := rows[|rows| - 1];
      TotalItemsIsRowCount(init);
      var gs := Grouped(init);
      match GroupIndex(gs, row.category)
      case Some(i) =>
        TotalItemsUpdate(gs, i, gs[i].(items := gs[i].items + [row.question]));
      case None =>
        TotalItemsAppend(gs, Group(row.category, row.categoryGoal, [row.question]));
    }
  }

  /** Each row's question is among the items of the one group titled with
      its category. */
  lemma {:induction false} RowInItsGroup(rows: seq<StoredQuestion>, k: nat)
    requires k < |rows|
    ensures rows[k].question in QuestionsIn(rows, rows[k].category)
    ensures exists j :: 0 <= j < |GroupsOf(rows)| && GroupsOf(rows)[j].title == rows[k].category
    ensures forall i, j :: 0 <= i < j < |GroupsOf(rows)| ==> GroupsOf(rows)[i].title != GroupsOf(rows)[j].title
  {
    var gs := GroupsOf(rows);
    var c := rows[k].category;
    assert Categories(rows)[k] == c;
    var d := Distinct(Categories(rows));
    var j :| 0 <= j < |d| && d[j] == c;
    assert gs[j].title == Titles(gs)[j];
    forall i, l | 0 <= i < l < |gs|
      ensures gs[i].title != gs[l].title
    {
      assert Titles(gs)[i] == d[i] && Titles(gs)[l] == d[l];
    }
    QuestionsInHas(rows, k);
  }

  lemma {:induction false} QuestionsInHas(rows: seq<StoredQuestion>, k: nat)
    requires k < |rows|
    ensures rows[k].question in QuestionsIn(rows, rows[k].category)
  {
    var init := rows[..|rows| - 1];
    if k < |init| {
      QuestionsInHas(init, k);
      assert init[k] == rows[k];
    }
  }

  // ----- The handler as written: a plain object as the map -----

  /** The keys every plain object inherits from `Object.prototype`; reading
      one of them from an empty object gives a function or an object, never
      `undefined`. */
  const InheritedKeys: set<string> := {
    "constructor", "__proto__", "toString", "toLocaleString", "valueOf",
    "hasOwnProperty", "isPrototypeOf", "propertyIsEnumerable",
    "__defineGetter__", "__defineSetter__", "__lookupGetter__", "__lookupSetter__"
  }

  /** The `forEach` with `groupedQuestions` a plain object: the lookup of an
      inherited key is truthy, so no group is created, and reading `.items`
      of the inherited member gives `undefined`, whose `.push` throws (`None`). */
  function GroupedAsWritten(rows: seq<StoredQuestion>): Option<seq<Group>> {
    if |rows| == 0 then Some([])
    else
      var row := rows[|rows| - 1];
      match GroupedAsWritten(rows[..|rows| - 1])
      case None => None
      case Some(gs) =>
        if GroupIndex(gs, row.category).None? && row.category in InheritedKeys then None
        else Some(AddRow(gs, row))
  }

  /** Some row's category is an inherited key. */
  predicate HasInheritedCategory(rows: seq<StoredQuestion>) {
    exists k :: 0 <= k < |rows| && rows[k].category in InheritedKeys
  }

  /** As written, the grouping throws exactly when some row's category is an
      inherited key, and otherwise agrees with the own-key lookup. */
  lemma {:induction false} AsWrittenThrowsIff(rows: seq<StoredQuestion>)
    ensures GroupedAsWritten(rows).None? <==> HasInheritedCategory(rows)
    ensures GroupedAsWritten(rows).Some? ==> GroupedAsWritten(rows).value == Grouped(rows)
  {
    if |rows| > 0 {
      var init := rows[..|rows| - 1];
      AsWrittenThrowsIff(init);
      InheritedSnoc(rows);
      if GroupedAsWritten(init).None? {
        assert GroupedAsWritten(rows).None?;
      } else if rows[|rows| - 1].category in InheritedKeys {
        InheritedFindsNoGroup(init, rows[|rows| - 1].category);
      } else {
        assert GroupedAsWritten(rows) == Some(AddRow(Grouped(init), rows[|rows| - 1]));
      }
    }
  }

  lemma InheritedSnoc(rows: seq<StoredQuestion>)
    requires |rows| > 0
    ensures HasInheritedCategory(rows) <==>
      HasInheritedCategory(rows[..|rows| - 1]) || rows[|rows| - 1].category in InheritedKeys
  {
    var init := rows[..|rows| - 1];
    if HasInheritedCategory(init) {
      var k :| 0 <= k < |init| && init[k].category in InheritedKeys;
      assert rows[k] == init[k];
    }
    if HasInheritedCategory(rows) {
      var k :| 0 <= k < |rows| && rows[k].category in InheritedKeys;
      if k < |init| {
        assert init[k] == rows[k];
      }
    }
  }

  /** An inherited category that no earlier row had finds no group of its
      own. */
  lemma InheritedFindsNoGroup(init: seq<StoredQuestion>, t: string)
    requires t in InheritedKeys && !HasInheritedCategory(init)
    ensures GroupIndex(Grouped(init), t).None?
  {
    TitlesAreCategories(init);
    assert t !in Categories(init) by {
      assert forall k :: 0 <= k < |init| ==> init[k].category != t;
    }
  }

  /** Every group title is the category of some row. */
  lemma TitlesAreCategories(rows: seq<StoredQuestion>)
    ensures forall i :: 0 <= i < |Grouped(rows)| ==> Grouped(rows)[i].title in Categories(rows)
  {
    GroupedIsGroupsOf(rows);
    var gs := Grouped(rows);
    forall i | 0 <= i < |gs|
      ensures gs[i].title in Categories(rows)
    {
      assert Titles(gs)[i] == gs[i].title;
    }
  }
}

=== FILE: numbers.dfy ===
/** JavaScript's `parseInt` (no radix argument) and the decimal rendering of
    integers used in messages. Numbers are unbounded integers here. */
module Numbers {
  import opened Wrappers
  import opened Text

  /** A digit in base 10, or in base 16 (either letter case). */
  predicate IsDigit(c: char, radix: nat) {
    || ('0' <= c <= '9')
    || (radix == 16 && (('a' <= c <= 'f') || ('A' <= c <= 'F')))
  }

  function DigitValue(c: char): nat {
    if '0' <= c <= '9' then c as nat - '0' as nat
    else if 'a' <= c <= 'f' then c as nat - 'a' as nat + 10
    else if 'A' <= c <= 'F' then c as nat - 'A' as nat + 10
    else 0
  }

  /** The length of the longest prefix of `s` made of digits. */
  function DigitRun(s: string, radix: nat): (n: nat)
    ensures n <= |s|
    ensures forall i :: 0 <= i < n ==> IsDigit(s[i], radix)
    ensures n == |s| || !IsDigit(s[n], radix)
  {
    if |s| > 0 && IsDigit(s[0], radix) then 1 + DigitRun(s[1..], radix) else 0
  }

  /** The value of a digit string, most significant digit first. */
  function ValueOf(ds: string, radix: nat): nat {
    if |ds| == 0 then 0
    else ValueOf(ds[..|ds| - 1], radix) * radix + DigitValue(ds[|ds| - 1])
  }

  /** `parseInt(s)`: skip leading white space, take an optional sign, read
      base 16 after a `0x`/`0X` prefix and base 10 otherwise, and convert the
      longest run of digits; `None` stands for `NaN` (no digit at all). */
  function ParseInt(s: string): Option<int> {
    ParseSigned(s[LeadingSpaces(s)..])
  }

  function ParseSigned(t: string): Option<int> {
    if |t| > 0 && t[0] == '-' then
      match ParseUnsigned(t[1..])
      case None => None
      case Some(v) => Some(-(v as int))
    else if |t| > 0 && t[0] == '+' then ParseUnsigned(t[1..])
    else ParseUnsigned(t)
  }

  function ParseUnsigned(u: string): Option<nat> {
    if |u| >= 2 && u[0] == '0' && (u[1] == 'x' || u[1] == 'X') then ParseDigits(u[2..], 16)
    else ParseDigits(u, 10)
  }

  function ParseDigits(d: string, radix: nat): Option<nat> {
    var n := DigitRun(d, radix);
    if n == 0 then None else Some(ValueOf(d[..n], radix))
  }

  /** `parseInt(x) || 0`: `NaN` (and `-0`) become 0. */
  function OrZero(v: Option<int>): int {
    v.GetOr(0)
  }

  function DigitChar(d: nat): (c: char)
    requires d < 10
    ensures IsDigit(c, 10) && DigitValue(c) == d
  {
    ('0' as nat + d) as char
  }

  /** The decimal numeral of `n`, without leading zeros. */
  function NatToDecimal(n: nat): (r: string)
    ensures |r| >= 1
    ensures forall i :: 0 <= i < |r| ==> IsDigit(r[i], 10)
    decreases n
  {
    if n < 10 then [DigitChar(n)] else NatToDecimal(n / 10) + [DigitChar(n % 10)]
  }

  /** `String(n)` for an integer `n`. */
  function Decimal(n: int): (r: string)
    ensures |r| >= 1
    ensures r[0] == '-' <==> n < 0
  {
    if n < 0 then "-" + NatToDecimal(-n) else NatToDecimal(n)
  }

  /** Reading a numeral back gives its value. */
  lemma {:induction false} ValueOfNatToDecimal(n: nat)
    ensures ValueOf(NatToDecimal(n), 10) == n
    decreases n
  {
    if n >= 10 {
      ValueOfNatToDecimal(n / 10);
      var r := NatToDecimal(n);
      assert r[..|r| - 1] == NatToDecimal(n / 10);
    }
  }

  lemma DigitRunAll(s: string, radix: nat)
    requires forall i :: 0 <= i < |s| ==> IsDigit(s[i], radix)
    ensures DigitRun(s, radix) == |s|
  {
  }

  /** `parseInt(String(n)) == n` for every integer: the numerals the client
      renders are read back exactly. */
  lemma ParseIntDecimal(n: int)
    ensures ParseInt(Decimal(n)) == Some(n)
  {
    var m: nat := if n < 0 then -n else n;
    var ds := NatToDecimal(m);
    ParseUnsignedNumeral(m);
    var s := Decimal(n);
    assert LeadingSpaces(s) == 0 by {
      if n >= 0 {
        assert IsDigit(ds[0], 10);
      }
    }
    assert s[0..] == s;
    if n < 0 {
      assert s[1..] == ds;
    } else {
      assert IsDigit(s[0], 10);
    }
  }

  lemma ParseUnsignedNumeral(m: nat)
    ensures ParseUnsigned(NatToDecimal(m)) == Some(m)
  {
    var ds := NatToDecimal(m);
    ValueOfNatToDecimal(m);
    DigitRunAll(ds, 10);
    assert ds[..|ds|] == ds;
    assert |ds| >= 2 ==> IsDigit(ds[1], 10);
  }

  /** The digit run stops at the first character that is not a digit. */
  lemma {:induction false} DigitRunStops(ds: string, rest: string, radix: nat)
    requires forall i :: 0 <= i < |ds| ==> IsDigit(ds[i], radix)
    requires |rest| == 0 || !IsDigit(rest[0], radix)
    ensures DigitRun(ds + rest, radix) == |ds|
    decreases |ds|
  {
    if |ds| > 0 {
      DigitRunStops(ds[1..], rest, radix);
      assert (ds + rest)[1..] == ds[1..] + rest;
    } else {
      assert ds + rest == rest;
    }
  }

  /** A numeral followed by text that neither continues it nor turns it into
      a hexadecimal prefix reads back as the number: `parseInt` stops at the
      first non-digit. */
  lemma ParseIntDecimalThen(n: int, rest: string)
    requires |rest| == 0 || (!IsDigit(rest[0], 10) && rest[0] != 'x' && rest[0] != 'X')
    ensures ParseInt(Decimal(n) + rest) == Some(n)
  {
    if n < 0 {
      ParseNegativeThen(n, rest);
    } else {
      ParseNonNegativeThen(n, rest);
    }
  }

  lemma ParseNegativeThen(n: int, rest: string)
    requires n < 0
    requires |rest| == 0 || (!IsDigit(rest[0], 10) && rest[0] != 'x' && rest[0] != 'X')
    ensures ParseInt(Decimal(n) + rest) == Some(n)
  {
    var m: nat := -n;
    var ds := NatToDecimal(m);
    ParseUnsignedThen(m, rest);
    assert Decimal(n) == "-" + ds;
    MinusSignThen(ds, rest, m);
  }

  /** A minus sign in front of an unsigned number negates it. */
  lemma MinusSignThen(ds: string, rest: string, m: nat)
    requires ParseUnsigned(ds + rest) == Some(m)
    ensures ParseInt("-" + ds + rest) == Some(-(m as int))
  {
    var s := "-" + ds + rest;
    assert s[0] == '-';
    assert LeadingSpaces(s) == 0;
    assert s[0..] == s;
    assert s[1..] == ds + rest;
  }

  lemma ParseNonNegativeThen(n: int, rest: string)
    requires n >= 0
    requires |rest| == 0 || (!IsDigit(rest[0], 10) && rest[0] != 'x' && rest[0] != 'X')
    ensures ParseInt(Decimal(n) + rest) == Some(n)
  {
    var ds := NatToDecimal(n);
    ParseUnsignedThen(n, rest);
    var s := Decimal(n) + rest;
    assert s == ds + rest;
    assert s[0] == ds[0] && IsDigit(ds[0], 10);
    assert LeadingSpaces(s) == 0;
    assert s[0..] == s;
  }

  /** A numeral followed by such text reads back as an unsigned number. */
  lemma ParseUnsignedThen(m: nat, rest: string)
    requires |rest| == 0 || (!IsDigit(rest[0], 10) && rest[0] != 'x' && rest[0] != 'X')
    ensures ParseUnsigned(NatToDecimal(m) + rest) == Some(m)
  {
    var ds := NatToDecimal(m);
    var u := ds + rest;
    ValueOfNatToDecimal(m);
    DigitRunStops(ds, rest, 10);
    assert u[..|ds|] == ds;
    assert !(|u| >= 2 && u[0] == '0' && (u[1] == 'x' || u[1] == 'X')) by {
      if |u| >= 2 {
        if |ds| >= 2 {
          assert u[1] == ds[1] && IsDigit(ds[1], 10);
        } else {
          assert u[1] == rest[0];
        }
      }
    }
  }

  /** A missing column reads as `parseInt(undefined)`, that is of the text
      "undefined", which is `NaN`. */
  lemma ParseIntUndefined()
    ensures ParseInt("undefined") == None
  {
    var u := "undefined";
    assert !IsSpace(u[0]) && !IsDigit(u[0], 10);
    assert LeadingSpaces(u) == 0;
    assert u[0..] == u;
  }
}

=== FILE: preview.dfy ===
/** The admin panel's preview gate for a batch (`previewData` and
    `displayPreview`), the question-list statistics (`updateStatistics`) and
    the list filters (`applyFilters`). */
module Preview {
  import opened Wrappers
  import opened Text
  import opened Numbers
  import opened Collections
  import opened Records
  import Csv
  import Shorthand

  const CsvEmptyError: string := "Cole o conteúdo CSV ou carregue um arquivo"
  const NoRecordsError: string := "Nenhuma pergunta válida encontrada"
  const PreviewOk: string := "Preview gerado com sucesso!"

  /** Where a batch comes from: the delimited-text box, the shorthand box with
      its four defaults, or any other import type (which parses nothing). */
  datatype Source =
    | CsvText(content: string)
    | FormText(text: string, defaults: Defaults)
    | OtherType

  /** The parse step of `previewData`: blank delimited text is an error, the
      shorthand parser's own error passes through, and another type yields
      no records. */
  function Parsed(src: Source): (r: Result<seq<QuestionRecord>, string>)
    ensures r.Failure? <==> match src
      case CsvText(c) => IsBlank(c)
      case FormText(t, _) => IsBlank(t)
      case OtherType => false
    ensures src.CsvText? && IsBlank(src.content) ==> r == Failure(CsvEmptyError)
    ensures src.CsvText? && !IsBlank(src.content) ==> r == Success(Csv.ParseCSV(src.content))
    ensures src.FormText? ==> r == Shorthand.ParseForm(src.text, src.defaults)
    ensures src.OtherType? ==> r == Success([])
  {
    match src
    case CsvText(content) =>
      if IsBlank(content) then Failure(CsvEmptyError) else Success(Csv.ParseCSV(content))
    case FormText(text, d) => Shorthand.ParseForm(text, d)
    case OtherType => Success([])
  }

  /** `previewData(type)`: the parsed records, or the message shown in red
      when parsing failed or found no record. */
  function PreviewData(src: Source): (r: Result<seq<QuestionRecord>, string>)
    ensures r.Success? <==> Parsed(src).Success? && |Parsed(src).value| > 0
    ensures r.Success? ==> r.value == Parsed(src).value
    ensures Parsed(src).Failure? ==> r == Failure(Parsed(src).error)
    ensures Parsed(src).Success? && |Parsed(src).value| == 0 ==> r == Failure(NoRecordsError)
  {
    match Parsed(src)
    case Failure(e) => Failure(e)
    case Success(qs) => if |qs| == 0 then Failure(NoRecordsError) else Success(qs)
  }

  /** The error messages the preview can show, one per way it can fail. */
  lemma PreviewErrors(src: Source)
    ensures src.CsvText? && IsBlank(src.content) ==> PreviewData(src) == Failure(CsvEmptyError)
    ensures src.FormText? && IsBlank(src.text) ==> PreviewData(src) == Failure(Shorthand.FormEmptyError)
    ensures src.OtherType? ==> PreviewData(src) == Failure(NoRecordsError)
    ensures src.CsvText? && !IsBlank(src.content) && Csv.ParseCSV(src.content) == [] ==>
      PreviewData(src) == Failure(NoRecordsError)
  {
  }

  /** The part of the import dialog the preview sets: the message and whether
      it is an error, whether the import button is disabled, and the records
      kept for the import. */
  datatype Dialog = Dialog(message: string, isError: bool, submitDisabled: bool, toImport: seq<QuestionRecord>)

  /** The dialog after a preview: on success the records are stored and the
      button enabled; on failure the button is disabled, the message is the
      error, and the records stored by an earlier preview stay. */
  function PreviewDialog(before: Dialog, src: Source): (after: Dialog)
    ensures after.submitDisabled <==> PreviewData(src).Failure?
    ensures after.isError == after.submitDisabled
    ensures PreviewData(src).Success? ==>
      after.toImport == PreviewData(src).value && |after.toImport| > 0 && after.message == PreviewOk
    ensures PreviewData(src).Failure? ==>
      after.toImport == before.toImport && after.message == PreviewData(src).error
  {
    match PreviewData(src)
    case Success(qs) => Dialog(PreviewOk, false, false, qs)
    case Failure(e) => Dialog(e, true, true, before.toImport)
  }

  // ----- The preview summary -----

  /** The number of different stacks among the records. */
  function StackCount(qs: seq<QuestionRecord>): (n: nat)
    ensures n == |set q | q in qs :: q.stack|
    ensures n <= |qs| && (|qs| > 0 ==> n >= 1)
  {
    var column := seq(|qs|, i requires 0 <= i < |qs| => qs[i].stack);
    assert (set x | x in column) == (set q | q in qs :: q.stack) by {
      forall y | y in column
        ensures y in (set q | q in qs :: q.stack)
      {
        var i :| 0 <= i < |column| && column[i] == y;
        assert qs[i] in qs;
      }
      forall y | y in (set q | q in qs :: q.stack)
        ensures y in column
      {
        var q :| q in qs && q.stack == y;
        var i :| 0 <= i < |qs| && qs[i] == q;
        assert column[i] == y;
      }
    }
    DistinctCount(column)
  }

  /** The number of different categories among the records. */
  function CategoryCount(qs: seq<QuestionRecord>): (n: nat)
    ensures n == |set q | q in qs :: q.category|
    ensures n <= |qs| && (|qs| > 0 ==> n >= 1)
  {
    var column := seq(|qs|, i requires 0 <= i < |qs| => qs[i].category);
    assert (set x | x in column) == (set q | q in qs :: q.category) by {
      forall y | y in column
        ensures y in (set q | q in qs :: q.category)
      {
        var i :| 0 <= i < |column| && column[i] == y;
        assert qs[i] in qs;
      }
      forall y | y in (set q | q in qs :: q.category)
        ensures y in column
      {
        var q :| q in qs && q.category == y;
        var i :| 0 <= i < |qs| && qs[i] == q;
        assert column[i] == y;
      }
    }
    DistinctCount(column)
  }

  /** The three numbers of the preview line. */
  datatype Summary = Summary(count: nat, stacks: nat, categories: nat)

  /** `displayPreview`'s counts: the records, the distinct stacks and the
      distinct categories. With at least one record there is at least one of
      each, and never more than records. */
  function PreviewSummary(qs: seq<QuestionRecord>): (s: Summary)
    ensures s.count == |qs|
    ensures s.stacks <= s.count && s.categories <= s.count
    ensures s.count > 0 ==> 1 <= s.stacks && 1 <= s.categories
    ensures s.stacks == |set q | q in qs :: q.stack|
    ensures s.categories == |set q | q in qs :: q.category|
  {
    Summary(|qs|, StackCount(qs), CategoryCount(qs))
  }

  /** The question cell of a preview row: the first 50 code units, followed
      by "..." when the question is longer. */
  function PreviewCell(question: string): (cell: string)
    ensures |question| <= 50 ==> cell == question
    ensures |question| > 50 ==> |cell| == 53 && cell[..50] == question[..50] && cell[50..] == "..."
  {
    if |question| > 50 then question[..50] + "..." else question
  }

  // ----- Statistics of the stored questions -----

  /** The four counters of the admin dashboard. */
  datatype Statistics = Statistics(total: nat, active: nat, stacks: nat, categories: nat)

  function StoredStackCount(qs: seq<StoredQuestion>): (n: nat)
    ensures n == |set q | q in qs :: q.stack| && n <= |qs|
  {
    var column := seq(|qs|, i requires 0 <= i < |qs| => qs[i].stack);
    assert (set x | x in column) == (set q | q in qs :: q.stack) by {
      forall y | y in column
        ensures y in (set q | q in qs :: q.stack)
      {
        var i :| 0 <= i < |column| && column[i] == y;
        assert qs[i] in qs;
      }
      forall y | y in (set q | q in qs :: q.stack)
        ensures y in column
      {
        var q :| q in qs && q.stack == y;
        var i :| 0 <= i < |qs| && qs[i] == q;
        assert column[i] == y;
      }
    }
    DistinctCount(column)
  }

  function StoredCategoryCount(qs: seq<StoredQuestion>): (n: nat)
    ensures n == |set q | q in qs :: q.category| && n <= |qs|
  {
    var column := seq(|qs|, i requires 0 <= i < |qs| => qs[i].category);
    assert (set x | x in column) == (set q | q in qs :: q.category) by {
      forall y | y in column
        ensures y in (set q | q in qs :: q.category)
      {
        var i :| 0 <= i < |column| && column[i] == y;
        assert qs[i] in qs;
      }
      forall y | y in (set q | q in qs :: q.category)
        ensures y in column
      {
        var q :| q in qs && q.category == y;
        var i :| 0 <= i < |qs| && qs[i] == q;
        assert column[i] == y;
      }
    }
    DistinctCount(column)
  }

  predicate IsActive(q: StoredQuestion) {
    q.isActive
  }

  /** `updateStatistics()`: all questions, the active ones, and the number of
      distinct stacks and categories, each as many as there are values. */
  function UpdateStatistics(qs: seq<StoredQuestion>): (s: Statistics)
    ensures s.total == |qs|
    ensures s.active <= s.total
    ensures s.active == s.total <==> forall i :: 0 <= i < |qs| ==> qs[i].isActive
    ensures s.stacks == |set q | q in qs :: q.stack|
    ensures s.categories == |set q | q in qs :: q.category|
    ensures s.stacks <= s.total && s.categories <= s.total
  {
    var active := Filter(IsActive, qs);
    FilterFull(IsActive, qs);
    Statistics(|qs|, |active|, StoredStackCount(qs), StoredCategoryCount(qs))
  }

  /** Filtering keeps every element exactly when every element passes. */
  lemma {:induction false} FilterFull<T>(p: T -> bool, xs: seq<T>)
    ensures |Filter(p, xs)| == |xs| <==> forall i :: 0 <= i < |xs| ==> p(xs[i])
  {
    if |xs| > 0 {
      var init := xs[..|xs| - 1];
      FilterFull(p, init);
      assert xs == init + [xs[|xs| - 1]];
      assert forall i :: 0 <= i < |init| ==> init[i] == xs[i];
    }
  }

  /** Filtering with a predicate no element meets leaves nothing. */
  lemma {:induction false} FilterNone<T>(p: T -> bool, xs: seq<T>)
    requires forall i :: 0 <= i < |xs| ==> !p(xs[i])
    ensures Filter(p, xs) == []
  {
    if |xs| > 0 {
      FilterNone(p, xs[..|xs| - 1]);
    }
  }

  // ----- Filters of the question list -----

  /** The three filter selections; the empty string means no filter. The
      status filter holds "true" or "false". */
  datatype Filters = Filters(seniority: string, stack: string, status: string)

  const NoFilters := Filters("", "", "")

  /** `String(b)` for a boolean. */
  function BoolText(b: bool): string {
    if b then "true" else "false"
  }

  predicate Matches(f: Filters, q: StoredQuestion) {
    && (f.seniority == "" || q.seniority == f.seniority)
    && (f.stack == "" || q.stack == f.stack)
    && (f.status == "" || BoolText(q.isActive) == f.status)
  }

  /** `applyFilters()`: the questions passing every non-empty filter, in list
      order. */
  function ApplyFilters(qs: seq<StoredQuestion>, f: Filters): (r: seq<StoredQuestion>)
    ensures IsSubsequence(r, qs)
    ensures forall i :: 0 <= i < |r| ==>
      && (f.seniority != "" ==> r[i].seniority == f.seniority)
      && (f.stack != "" ==> r[i].stack == f.stack)
      && (f.status == "true" ==> r[i].isActive)
      && (f.status == "false" ==> !r[i].isActive)
  {
    FilterSound(q => Matches(f, q), qs);
    FilterSubsequence(q => Matches(f, q), qs);
    Filter(q => Matches(f, q), qs)
  }

  /** A question is shown exactly when it is in the list and passes every
      non-empty filter. */
  lemma ApplyFiltersMembers(qs: seq<StoredQuestion>, f: Filters, q: StoredQuestion)
    ensures q in ApplyFilters(qs, f) <==> q in qs && Matches(f, q)
  {
    var r := ApplyFilters(qs, f);
    FilterSound(q => Matches(f, q), qs);
    FilterComplete(q => Matches(f, q), qs);
    if q in r {
      var i :| 0 <= i < |r| && r[i] == q;
    }
    if q in qs && Matches(f, q) {
      var i :| 0 <= i < |qs| && qs[i] == q;
    }
  }

  /** Each question is shown as many times as it occurs in the list when it
      passes the filters, and not at all otherwise: repeated rows are kept. */
  lemma ApplyFiltersCounts(qs: seq<StoredQuestion>, f: Filters, q: StoredQuestion)
    ensures multiset(ApplyFilters(qs, f))[q] == if Matches(f, q) then multiset(qs)[q] else 0
  {
    FilterMultiplicity(x => Matches(f, x), qs, q);
  }

  /** With no filter selected the whole list is shown. */
  lemma NoFiltersShowAll(qs: seq<StoredQuestion>)
    ensures ApplyFilters(qs, NoFilters) == qs
  {
    FilterAll(q => Matches(NoFilters, q), qs);
  }

  /** Filtering a filtered list again changes nothing. */
  lemma ApplyFiltersIdempotent(qs: seq<StoredQuestion>, f: Filters)
    ensures ApplyFilters(ApplyFilters(qs, f), f) == ApplyFilters(qs, f)
  {
    var r := ApplyFilters(qs, f);
    FilterSound(q => Matches(f, q), qs);
    assert forall i :: 0 <= i < |r| ==> Matches(f, r[i]);
    FilterAll(q => Matches(f, q), r);
  }

  /** A status filter other than "true" or "false" matches nothing. */
  lemma UnknownStatusShowsNothing(qs: seq<StoredQuestion>, f: Filters)
    requires f.status != "" && f.status != "true" && f.status != "false"
    ensures ApplyFilters(qs, f) == []
  {
    var r := ApplyFilters(qs, f);
    assert forall i :: 0 <= i < |qs| ==> !Matches(f, qs[i]);
    FilterNone(q => Matches(f, q), qs);
  }
}

=== FILE: records.dfy ===
/** The question records the importer builds and the rows the server returns. */
module Records {

  /** One question as the bulk importer builds it: the five text columns and
      the position of the question within its category. */
  datatype QuestionRecord = QuestionRecord(
    seniority: string,
    stack: string,
    category: string,
    categoryGoal: string,
    question: string,
    orderPosition: int)

  /** The batch-level values the shorthand format gives to pipe-free lines. */
  datatype Defaults = Defaults(
    seniority: string,
    stack: string,
    category: string,
    categoryGoal: string)

  /** A stored question row, as the admin list and the public routes read it
      from the `interview_questions` table. */
  datatype StoredQuestion = StoredQuestion(
    id: int,
    seniority: string,
    stack: string,
    category: string,
    categoryGoal: string,
    question: string,
    orderPosition: int,
    isActive: bool)
}

=== FILE: server.dfy ===
/** The rules of the Express server: the admin password and its check, the
    validation and defaults of `/add`, the update payload of `/edit`, the
    stack list, the grouped question list and the random question. The
    database is not modelled: what a query returns is an input, `None` when
    the query reports an error. */
module Server {
  import opened Wrappers
  import opened Collections
  import opened Records
  import opened Grouping

  // ----- JSON request bodies -----

  /** A value of a parsed JSON body. Arrays and objects only matter through
      their truthiness here, and are always truthy. */
  datatype Value = Null | Bool(b: bool) | Num(x: real) | Str(s: string) | Compound

  /** A request body; a key that is absent reads as `undefined`. */
  type Body = map<string, Value>

  /** JavaScript truthiness of a value read from a body (`undefined` is the
      absent key and is falsy). */
  predicate Truthy(v: Value) {
    match v
    case Null => false
    case Bool(b) => b
    case Num(x) => x != 0.0
    case Str(s) => s != []
    case Compound => true
  }

  predicate Given(body: Body, key: string) {
    key in body && Truthy(body[key])
  }

  /** The answer of a route: a JSON value, or an error status with the
      `error` text of its body. */
  datatype Reply<+T> = Ok(value: T) | Error(status: int, message: string)

  // ----- The admin password -----

  const DefaultPassword: string := "admin123"
  const WrongPassword: string := "Senha incorreta"

  /** `ADMIN_PASSWORD`: the environment variable unless it is unset or empty. */
  function AdminPassword(env: Option<string>): (pw: string)
    ensures env.Some? && env.value != [] ==> pw == env.value
    ensures env.None? || env.value == [] ==> pw == DefaultPassword
    ensures pw != []
  {
    if env.Some? && env.value != [] then env.value else DefaultPassword
  }

  /** The body's `password` is strictly equal to the admin password: it must
      be a string, and the same string. */
  predicate Authorized(body: Body, pw: string) {
    "password" in body && body["password"] == Str(pw)
  }

  /** `verifyAdmin`: the request goes on exactly when the password matches,
      and is answered 401 otherwise. */
  function VerifyAdmin(body: Body, pw: string): (r: Reply<()>)
    ensures r.Ok? <==> Authorized(body, pw)
    ensures r.Error? ==> r.status == 401 && r.message == WrongPassword
  {
    if Authorized(body, pw) then Ok(()) else Error(401, WrongPassword)
  }

  /** The answer of `/verify`: the HTTP status, `valid`, and the error text. */
  datatype Verdict = Verdict(status: int, valid: bool, error: Option<string>)

  /** `/api/admin/verify`: valid exactly when the guard lets the request
      through, with status 200, and 401 with the error otherwise. */
  function VerifyRoute(body: Body, pw: string): (v: Verdict)
    ensures v.valid <==> VerifyAdmin(body, pw).Ok?
    ensures v.valid ==> v.status == 200 && v.error.None?
    ensures !v.valid ==> v.status == 401 && v.error == Some(WrongPassword)
  {
    if "password" in body && body["password"] == Str(pw) then Verdict(200, true, None)
    else Verdict(401, false, Some(WrongPassword))
  }

  /** Only the admin password opens the admin routes: a body carrying a
      string password is let in exactly when it is that string, and with
      the variable unset that string is "admin123". Missing passwords and
      passwords sent as other JSON types are refused. */
  lemma OnlyThePassword(env: Option<string>, sent: string)
    ensures VerifyAdmin(map["password" := Str(sent)], AdminPassword(env)).Ok? <==> sent == AdminPassword(env)
    ensures env.None? ==> (VerifyAdmin(map["password" := Str(sent)], AdminPassword(env)).Ok? <==> sent == "admin123")
    ensures VerifyAdmin(map[], AdminPassword(env)).Error?
    ensures forall v: Value :: !v.Str? ==> VerifyAdmin(map["password" := v], AdminPassword(env)).Error?
  {
  }

  // ----- /add -----

  const MissingFields: string := "Campos obrigatórios: seniority, stack, category, question"
  const InsertFailed: string := "Erro ao adicionar pergunta"

  /** The columns of the row `/add` inserts. */
  const RowKeys: set<string> := {"seniority", "stack", "category", "category_goal", "question", "order_position"}

  /** The four fields `/add` requires are all truthy. */
  predicate HasRequiredFields(body: Body) {
    Given(body, "seniority") && Given(body, "stack") && Given(body, "category") && Given(body, "question")
  }

  /** `/api/admin/questions/add` up to the insert: the guard first, then 400
      unless the four required fields are truthy, then the row with the
      defaults for the goal and the position. `insertFails` is the database
      error of the insert. */
  function AddRoute(body: Body, pw: string, insertFails: bool): (r: Reply<Body>)
    ensures !Authorized(body, pw) ==> r == Error(401, WrongPassword)
    ensures Authorized(body, pw) ==> (r == Error(400, MissingFields) <==> !HasRequiredFields(body))
    ensures r.Ok? ==>
      && !insertFails
      && r.value.Keys == RowKeys
      && (forall k :: k in {"seniority", "stack", "category", "question"} ==> k in body && r.value[k] == body[k])
      && r.value["category_goal"] == (if Given(body, "category_goal") then body["category_goal"] else Str(""))
      && r.value["order_position"] == (if Given(body, "order_position") then body["order_position"] else Num(0.0))
    ensures r.Error? && r.status == 500 ==> r.message == InsertFailed && insertFails
    ensures Authorized(body, pw) && HasRequiredFields(body) ==> (r.Ok? <==> !insertFails)
    ensures Authorized(body, pw) && HasRequiredFields(body) && insertFails ==> r == Error(500, InsertFailed)
  {
    if !Authorized(body, pw) then Error(401, WrongPassword)
    else if !HasRequiredFields(body) then Error(400, MissingFields)
    else if insertFails then Error(500, InsertFailed)
    else
      Ok(map[
        "seniority" := body["seniority"],
        "stack" := body["stack"],
        "category" := body["category"],
        "category_goal" := OrDefault(body, "category_goal", Str("")),
        "question" := body["question"],
        "order_position" := OrDefault(body, "order_position", Num(0.0))])
  }

  /** `body.key || fallback`. */
  function OrDefault(body: Body, key: string, fallback: Value): Value {
    if Given(body, key) then body[key] else fallback
  }

  /** An accepted row is never missing a required field, and the password
      is never stored. */
  lemma AddRowComplete(body: Body, pw: string)
    requires AddRoute(body, pw, false).Ok?
    ensures var row := AddRoute(body, pw, false).value;
      && "password" !in row && "id" !in row
      && Truthy(row["seniority"]) && Truthy(row["stack"]) && Truthy(row["category"]) && Truthy(row["question"])
  {
  }

  /** A missing or falsy goal is stored as "" and a missing or falsy
      position (0, "", `false` or `null`) as 0. */
  lemma AddDefaults(body: Body, pw: string)
    requires AddRoute(body, pw, false).Ok?
    requires "category_goal" !in body || !Truthy(body["category_goal"])
    requires "order_position" !in body || !Truthy(body["order_position"])
    ensures AddRoute(body, pw, false).value["category_goal"] == Str("")
    ensures AddRoute(body, pw, false).value["order_position"] == Num(0.0)
  {
  }

  // ----- /edit -----

  /** The fields `/edit` copies, in the order of the handler. */
  const EditableFields: seq<string> :=
    ["seniority", "stack", "category", "category_goal", "question", "order_position", "is_active"]

  /** The `updateData` the handler builds by testing `fields` one after the
      other: a field is copied when it is not `undefined`, that is present in
      the body, whatever its value (`null`, `false` and "" included). */
  function UpdateData(body: Body, fields: seq<string>): (u: Body)
    ensures u.Keys == set f | f in fields && f in body
    ensures forall f :: f in u ==> u[f] == body[f]
  {
    if |fields| == 0 then map[]
    else
      var f := fields[|fields| - 1];
      var u := UpdateData(body, fields[..|fields| - 1]);
      assert forall g :: g in fields <==> g in fields[..|fields| - 1] || g == f;
      if f in body then u[f := body[f]] else u
  }

  const EditFailed: string := "Erro ao editar pergunta"

  /** `/api/admin/questions/edit/:id` up to the update: the guard, then the
      payload of the body's editable fields. The id comes from the path and
      is not part of the payload. */
  function EditRoute(body: Body, pw: string, updateFails: bool): (r: Reply<Body>)
    ensures r.Ok? <==> Authorized(body, pw) && !updateFails
    ensures r.Ok? ==> r.value == UpdateData(body, EditableFields)
    ensures !Authorized(body, pw) ==> r == Error(401, WrongPassword)
    ensures Authorized(body, pw) && updateFails ==> r == Error(500, EditFailed)
  {
    match VerifyAdmin(body, pw)
    case Error(status, message) => Error(status, message)
    case Ok(_) => if updateFails then Error(500, EditFailed) else Ok(UpdateData(body, EditableFields))
  }

  /** The payload holds exactly the editable fields the body defines, with
      their values; the password the body carries and any `id` it holds are
      never among them. */
  lemma EditPayloadExact(body: Body)
    ensures var u := UpdateData(body, EditableFields);
      && (forall k :: k in u <==> k in body && k in EditableFields)
      && (forall k :: k in u ==> u[k] == body[k])
      && "password" !in u && "id" !in u
  {
    assert "password" !in EditableFields && "id" !in EditableFields;
  }

  /** Only the fields the body names change: a field absent from the body
      keeps its stored value after the update. */
  lemma EditKeepsAbsentFields(stored: Body, body: Body, k: string)
    requires k in stored && k !in body
    ensures var u := UpdateData(body, EditableFields);
      k in (stored + u) && (stored + u)[k] == stored[k]
  {
  }

  // ----- /stacks -----

  const StacksFailed: string := "Erro ao buscar stacks"

  /** `/api/stacks/:seniority`: the stacks of the fetched rows without
      repetition. */
  function StacksRoute(data: Option<seq<string>>): (r: Reply<seq<string>>)
    ensures r.Error? <==> data.None?
    ensures r.Error? ==> r == Error(500, StacksFailed)
    ensures r.Ok? ==>
      && NoDuplicates(r.value)
      && (forall s :: s in r.value <==> s in data.value)
      && |r.value| <= |data.value|
  {
    match data
    case None => Error(500, StacksFailed)
    case Some(stacks) => Ok(Distinct(stacks))
  }

  /** The stacks come in the order in which they first appear. */
  lemma StacksInFirstOccurrenceOrder(stacks: seq<string>)
    ensures var r := StacksRoute(Some(stacks)).value;
      forall i, j :: 0 <= i < j < |r| ==> FirstIndex(stacks, r[i]) < FirstIndex(stacks, r[j])
  {
    DistinctFirstOccurrenceOrder(stacks);
  }

  // ----- /questions -----

  const QuestionsFailed: string := "Erro ao buscar perguntas"
  const InternalError: string := "Erro interno do servidor"

  const IntroHead: string := "Perguntas para "
  const IntroMiddle: string := " - Nível "

  /** The answer of `/api/questions/:seniority/:stack`. */
  datatype Listing = Listing(intro: string, categories: seq<Group>)

  /** "Perguntas para <stack> - Nível <seniority>". */
  function Intro(stack: string, seniority: string): (s: string)
    ensures |s| == |IntroHead| + |stack| + |IntroMiddle| + |seniority|
    ensures s[..|IntroHead|] == IntroHead
    ensures s[|IntroHead|..|IntroHead| + |stack|] == stack
    ensures s[|IntroHead| + |stack|..|s| - |seniority|] == IntroMiddle
    ensures s[|s| - |seniority|..] == seniority
  {
    IntroHead + stack + IntroMiddle + seniority
  }

  /** The route with the grouping keyed by own categories only. */
  function QuestionsRoute(seniority: string, stack: string, data: Option<seq<StoredQuestion>>): (r: Reply<Listing>)
    ensures r.Error? <==> data.None?
    ensures r.Error? ==> r == Error(500, QuestionsFailed)
    ensures r.Ok? ==> r.value.intro == Intro(stack, seniority) && r.value.categories == GroupsOf(data.value)
  {
    match data
    case None => Error(500, QuestionsFailed)
    case Some(rows) =>
      GroupedIsGroupsOf(rows);
      Ok(Listing(Intro(stack, seniority), Grouped(rows)))
  }

  /** The listing holds every fetched question once: each row's question is
      in the group of its category, there is one group per category, and the
      groups hold as many questions as there were rows. */
  lemma ListingAccountsForRows(seniority: string, stack: string, rows: seq<StoredQuestion>)
    ensures var gs := QuestionsRoute(seniority, stack, Some(rows)).value.categories;
      && TotalItems(gs) == |rows|
      && (forall i, j :: 0 <= i < j < |gs| ==> gs[i].title != gs[j].title)
      && (forall k :: 0 <= k < |rows| ==> exists j :: 0 <= j < |gs| && gs[j].title == rows[k].category)
  {
    TotalItemsIsRowCount(rows);
    GroupedIsGroupsOf(rows);
    if |rows| == 0 {
      assert Distinct(Categories(rows)) == [];
    } else {
      RowInItsGroup(rows, 0);
    }
    forall k | 0 <= k < |rows|
      ensures exists j :: 0 <= j < |GroupsOf(rows)| && GroupsOf(rows)[j].title == rows[k].category
    {
      RowInItsGroup(rows, k);
    }
  }

  /** The route as written: the grouping throws for a category that names
      an inherited member of a plain object, and the catch answers 500. */
  function QuestionsRouteAsWritten(seniority: string, stack: string, data: Option<seq<StoredQuestion>>): (r: Reply<Listing>)
    ensures data.None? ==> r == Error(500, QuestionsFailed)
    ensures data.Some? && GroupedAsWritten(data.value).Some? ==>
      r == Ok(Listing(Intro(stack, seniority), GroupedAsWritten(data.value).value))
    ensures data.Some? && GroupedAsWritten(data.value).None? ==> r == Error(500, InternalError)
  {
    match data
    case None => Error(500, QuestionsFailed)
    case Some(rows) =>
      match GroupedAsWritten(rows)
      case None => Error(500, InternalError)
      case Some(gs) => Ok(Listing(Intro(stack, seniority), gs))
  }

  /** As written, the route agrees with the corrected one unless a category
      is an inherited key, and then it fails. */
  lemma AsWrittenAgreesOtherwise(seniority: string, stack: string, rows: seq<StoredQuestion>)
    ensures (forall k :: 0 <= k < |rows| ==> rows[k].category !in InheritedKeys) ==>
      QuestionsRouteAsWritten(seniority, stack, Some(rows)) == QuestionsRoute(seniority, stack, Some(rows))
    ensures (exists k :: 0 <= k < |rows| && rows[k].category in InheritedKeys) ==>
      QuestionsRouteAsWritten(seniority, stack, Some(rows)) == Error(500, InternalError)
  {
    AsWrittenThrowsIff(rows);
  }

  /** One active question in the category "constructor" turns the whole
      listing into a 500, though the corrected route lists it. */
  lemma ConstructorCategoryFails(q: StoredQuestion)
    requires q.category == "constructor"
    ensures QuestionsRouteAsWritten("Junior", "Java", Some([q])) == Error(500, InternalError)
    ensures QuestionsRoute("Junior", "Java", Some([q])).Ok?
  {
    AsWrittenThrowsIff([q]);
    assert [q][0].category in InheritedKeys;
  }

  // ----- /random-question -----

  const RandomFailed: string := "Erro ao buscar pergunta aleatória"
  const NoQuestion: string := "Nenhuma pergunta encontrada"

  /** The index `Math.floor(draw * n)` for a draw in [0, 1). */
  function DrawIndex(draw: real, n: nat): (i: nat)
    requires 0.0 <= draw < 1.0 && n > 0
    ensures i < n
  {
    var x := draw * n as real;
    assert 0.0 <= x < n as real by {
      assert draw * n as real <= draw * n as real;
    }
    x.Floor
  }

  /** `/api/random-question/:seniority/:stack` with `draw` the value of
      `Math.random()`: 404 exactly when nothing matches, otherwise one of the
      fetched questions. */
  function RandomQuestion(data: Option<seq<string>>, draw: real): (r: Reply<string>)
    requires 0.0 <= draw < 1.0
    ensures r.Ok? <==> data.Some? && |data.value| > 0
    ensures r.Ok? ==> r.value in data.value
    ensures data.Some? && |data.value| == 0 ==> r == Error(404, NoQuestion)
    ensures data.None? ==> r == Error(500, RandomFailed)
  {
    match data
    case None => Error(500, RandomFailed)
    case Some(qs) =>
      if |qs| == 0 then Error(404, NoQuestion) else Ok(qs[DrawIndex(draw, |qs|)])
  }

  /** Every fetched question can be drawn: the draw i/n picks the i-th. */
  lemma EveryQuestionReachable(qs: seq<string>, i: nat)
    requires i < |qs|
    ensures 0.0 <= i as real / |qs| as real < 1.0
    ensures RandomQuestion(Some(qs), i as real / |qs| as real) == Ok(qs[i])
  {
    var n := |qs| as real;
    var draw := i as real / n;
    assert draw * n == i as real;
  }
}

=== FILE: shorthand.dfy ===
/** The shorthand batch format of the admin panel (`parseForm`): one question
    per line, either `seniority|stack|category|goal|question` or a bare
    question that takes the batch-level defaults. */
module Shorthand {
  import opened Wrappers
  import opened Text
  import opened Records
  import opened Collections

  const FormEmptyError: string := "Digite pelo menos uma pergunta"

  /** The record the line at position `index` of the split text gives, if any.
      Blank lines give none; a line with a pipe is split on pipes, its pieces
      trimmed, and the first five taken positionally when there are at least
      five; a pipe-free line is a question with the defaults. The order
      position is the line's index plus one, whether or not earlier lines
      gave records. */
  function FormLine(line: string, index: int, d: Defaults): (r: Option<QuestionRecord>)
    ensures r.Some? ==> r.value.orderPosition == index + 1
  {
    var t := Trim(line);
    if t == [] then None
    else if '|' in t then
      var parts := MapTrim(Split(t, '|'));
      if |parts| >= 5 then Some(QuestionRecord(parts[0], parts[1], parts[2], parts[3], parts[4], index + 1))
      else None
    else Some(QuestionRecord(d.seniority, d.stack, d.category, d.categoryGoal, t, index + 1))
  }

  /** Which lines give a record: none for a blank line, the defaults with the
      trimmed line for a pipe-free one, and for a pipe line exactly when it has
      at least four pipes, that is at least five pieces. */
  lemma FormLineCases(line: string, index: int, d: Defaults)
    ensures IsBlank(line) ==> FormLine(line, index, d).None?
    ensures !IsBlank(line) && '|' !in Trim(line) ==>
      FormLine(line, index, d)
        == Some(QuestionRecord(d.seniority, d.stack, d.category, d.categoryGoal, Trim(line), index + 1))
    ensures '|' in Trim(line) ==> (FormLine(line, index, d).Some? <==> Count('|', Trim(line)) >= 4)
  {
  }

  /** What each line of the split text gives, at its index. */
  function LineResults(lines: seq<string>, d: Defaults): (r: seq<Option<QuestionRecord>>)
    ensures |r| == |lines|
    ensures forall i :: 0 <= i < |lines| ==> r[i] == FormLine(lines[i], i, d)
  {
    seq(|lines|, i requires 0 <= i < |lines| => FormLine(lines[i], i, d))
  }

  /** The records of the lines, in line order. */
  function FormRecords(lines: seq<string>, d: Defaults): (r: seq<QuestionRecord>)
    ensures |r| <= |lines|
  {
    Somes(LineResults(lines, d))
  }

  /** Every line that gives a record has it in the result. */
  lemma FormRecordsComplete(lines: seq<string>, d: Defaults)
    ensures forall j :: 0 <= j < |lines| && FormLine(lines[j], j, d).Some? ==>
      FormLine(lines[j], j, d).value in FormRecords(lines, d)
  {
    SomesComplete(LineResults(lines, d));
  }

  /** Each record is what the line at its order position gives, and the
      positions strictly increase. */
  lemma FormRecordsPositions(lines: seq<string>, d: Defaults)
    ensures var r := FormRecords(lines, d);
      && (forall k :: 0 <= k < |r| ==>
            && 1 <= r[k].orderPosition <= |lines|
            && FormLine(lines[r[k].orderPosition - 1], r[k].orderPosition - 1, d) == Some(r[k]))
      && (forall k, l :: 0 <= k < l < |r| ==> r[k].orderPosition < r[l].orderPosition)
  {
    var opts := LineResults(lines, d);
    SomesAt(opts, Index, 0);
    var r := FormRecords(lines, d);
    assert AtKeys(r, opts, Index, 0) && KeysIncrease(r, Index);
  }

  /** The index a record was read at, one less than its order position. */
  function Index(q: QuestionRecord): int {
    q.orderPosition - 1
  }

  /** `parseForm()` with the four defaults as parameters: blank text is an
      error, anything else is split into lines that are read one by one. */
  function ParseForm(text: string, d: Defaults): (r: Result<seq<QuestionRecord>, string>)
    ensures r.Failure? <==> IsBlank(text)
    ensures r.Failure? ==> r.error == FormEmptyError
  {
    if IsBlank(text) then Failure(FormEmptyError)
    else Success(FormRecords(Split(Trim(text), '\n'), d))
  }

  /** Each record of the shorthand text is what the line at its order
      position gives, and the positions strictly increase within the lines:
      blank and dropped lines still take up their position. */
  lemma ParseFormPositions(text: string, d: Defaults)
    requires !IsBlank(text)
    ensures var lines := Split(Trim(text), '\n');
      var r := ParseForm(text, d).value;
      && (forall k :: 0 <= k < |r| ==>
            && 1 <= r[k].orderPosition <= |lines|
            && FormLine(lines[r[k].orderPosition - 1], r[k].orderPosition - 1, d) == Some(r[k]))
      && (forall k, l :: 0 <= k < l < |r| ==> r[k].orderPosition < r[l].orderPosition)
  {
    var lines := Split(Trim(text), '\n');
    assert ParseForm(text, d).value == FormRecords(lines, d);
    FormRecordsPositions(lines, d);
  }

  // ----- The pipe format round trip -----

  /** Gluing two trimmed strings with a separator whose ends are not white
      space gives a trimmed string. */
  lemma TrimmedGlue(a: string, sep: string, b: string)
    requires IsTrimmed(a) && IsTrimmed(b)
    requires |sep| > 0 && !IsSpace(sep[0]) && !IsSpace(sep[|sep| - 1])
    ensures IsTrimmed(a + sep + b)
  {
    var s := a + sep + b;
    assert s[0] == if |a| > 0 then a[0] else sep[0];
    assert s[|s| - 1] == if |b| > 0 then b[|b| - 1] else sep[|sep| - 1];
  }

  /** Joining trimmed pieces with a pipe gives a trimmed line. */
  lemma {:induction false} JoinPipeTrimmed(fields: seq<string>)
    requires |fields| >= 1
    requires forall i :: 0 <= i < |fields| ==> IsTrimmed(fields[i])
    ensures IsTrimmed(JoinWith("|", fields))
    decreases |fields|
  {
    if |fields| > 1 {
      JoinPipeTrimmed(fields[1..]);
      TrimmedGlue(fields[0], "|", JoinWith("|", fields[1..]));
    }
  }

  /** Writing five or more trimmed, pipe-free fields as a pipe line and reading
      it back gives the record of the first five; extra fields are ignored. */
  lemma PipeLineRoundTrip(fields: seq<string>, index: int, d: Defaults)
    requires |fields| >= 5
    requires forall i :: 0 <= i < |fields| ==> IsTrimmed(fields[i]) && '|' !in fields[i]
    ensures FormLine(JoinWith("|", fields), index, d)
         == Some(QuestionRecord(fields[0], fields[1], fields[2], fields[3], fields[4], index + 1))
  {
    var line := JoinWith("|", fields);
    JoinPipeTrimmed(fields);
    TrimOfTrimmed(line);
    SplitJoin(fields, '|');
    assert line == fields[0] + "|" + JoinWith("|", fields[1..]);
    assert '|' in line by {
      assert line[|fields[0]|] == '|';
    }
    assert !IsBlank(line);
    forall i | 0 <= i < |fields|
      ensures Trim(fields[i]) == fields[i]
    {
      TrimOfTrimmed(fields[i]);
    }
  }

  /** A pipe line with fewer than five pieces is dropped without an error. */
  lemma ShortPipeLineDropped(line: string, index: int, d: Defaults)
    requires '|' in Trim(line) && Count('|', Trim(line)) < 4
    ensures FormLine(line, index, d).None?
  {
    FormLineCases(line, index, d);
  }

  /** A blank line gives no record but still takes up an order position: in
      "a\n\nb" the second question is at position 3. */
  lemma BlankLinesCounted(d: Defaults)
    ensures ParseForm("a\n\nb", d)
         == Success([QuestionRecord(d.seniority, d.stack, d.category, d.categoryGoal, "a", 1),
                     QuestionRecord(d.seniority, d.stack, d.category, d.categoryGoal, "b", 3)])
  {
    var text := "a\n\nb";
    assert IsTrimmed(text);
    TrimOfTrimmed(text);
    ExampleLines();
    ExampleRecords(d);
  }

  lemma ExampleLines()
    ensures Split("a\n\nb", '\n') == ["a", "", "b"]
  {
    var text := "a\n\nb";
    assert text == "a" + ['\n'] + ("" + ['\n'] + "b");
    SplitAfterPiece("a", "" + ['\n'] + "b", '\n');
    SplitAfterPiece("", "b", '\n');
    SplitNoSeparator("b", '\n');
  }

  lemma ExampleRecords(d: Defaults)
    ensures FormRecords(["a", "", "b"], d)
         == [QuestionRecord(d.seniority, d.stack, d.category, d.categoryGoal, "a", 1),
             QuestionRecord(d.seniority, d.stack, d.category, d.categoryGoal, "b", 3)]
  {
    var lines := ["a", "", "b"];
    ExampleLine("a", 0, d);
    ExampleLine("b", 2, d);
    assert IsBlank("");
    FormLineCases("", 1, d);
    var qa := QuestionRecord(d.seniority, d.stack, d.category, d.categoryGoal, "a", 1);
    var qb := QuestionRecord(d.seniority, d.stack, d.category, d.categoryGoal, "b", 3);
    var opts := LineResults(lines, d);
    assert opts[0] == Some(qa) && opts[1] == None && opts[2] == Some(qb);
    ThreeElements(opts, Some(qa), None, Some(qb));
    SomesSkipGap(qa, qb);
  }

  lemma ExampleLine(q: string, index: int, d: Defaults)
    requires q == "a" || q == "b"
    ensures FormLine(q, index, d) == Some(QuestionRecord(d.seniority, d.stack, d.category, d.categoryGoal, q, index + 1))
  {
    assert IsTrimmed(q);
    TrimOfTrimmed(q);
    FormLineCases(q, index, d);
  }
}

=== FILE: text.dfy ===
/** The JavaScript string built-ins the importer relies on: `trim`, `split` on
    a one-character separator, `join`, `includes` and a global one-character
    `replace`, over strings as sequences of code units. */
module Text {

  /** The code points `String.prototype.trim` removes: the ECMAScript
      WhiteSpace set (tab, vertical tab, form feed, space, no-break space,
      byte-order mark and the Zs separators) and the LineTerminator set. */
  const SpaceChars: set<char> := {
    '\t', '\n', '\U{000B}', '\U{000C}', '\r', ' ', '\U{00A0}', '\U{1680}',
    '\U{2000}', '\U{2001}', '\U{2002}', '\U{2003}', '\U{2004}', '\U{2005}',
    '\U{2006}', '\U{2007}', '\U{2008}', '\U{2009}', '\U{200A}',
    '\U{2028}', '\U{2029}', '\U{202F}', '\U{205F}', '\U{3000}', '\U{FEFF}'
  }

  predicate IsSpace(c: char) {
    c in SpaceChars
  }

  predicate AllSpace(s: string) {
    forall i :: 0 <= i < |s| ==> IsSpace(s[i])
  }

  /** Neither end of `s` is white space. */
  predicate IsTrimmed(s: string) {
    |s| == 0 || (!IsSpace(s[0]) && !IsSpace(s[|s| - 1]))
  }

  /** The number of white-space code units `s` starts with. */
  function LeadingSpaces(s: string): (n: nat)
    ensures n <= |s|
    ensures forall i :: 0 <= i < n ==> IsSpace(s[i])
    ensures n == |s| || !IsSpace(s[n])
  {
    if |s| > 0 && IsSpace(s[0]) then 1 + LeadingSpaces(s[1..]) else 0
  }

  /** The number of white-space code units `s` ends with. */
  function TrailingSpaces(s: string): (n: nat)
    ensures n <= |s|
    ensures forall i :: |s| - n <= i < |s| ==> IsSpace(s[i])
    ensures n == |s| || !IsSpace(s[|s| - n - 1])
  {
    if |s| > 0 && IsSpace(s[|s| - 1]) then 1 + TrailingSpaces(s[..|s| - 1]) else 0
  }

  /** `s.trim()`: `s` is white space, then the result, then white space, and
      the result neither starts nor ends with white space. */
  function Trim(s: string): (r: string)
    ensures IsTrimmed(r)
    ensures var k := LeadingSpaces(s);
      && k + |r| <= |s|
      && r == s[k..k + |r|]
      && (forall i :: 0 <= i < k ==> IsSpace(s[i]))
      && (forall i :: k + |r| <= i < |s| ==> IsSpace(s[i]))
    ensures |r| == 0 <==> AllSpace(s)
  {
    StripTrimmed(s);
    StripBounds(s);
    Strip(s)
  }

  /** `s` without its leading and trailing white space. */
  function Strip(s: string): string {
    var k := LeadingSpaces(s);
    s[k..][..|s| - k - TrailingSpaces(s[k..])]
  }

  lemma StripTrimmed(s: string)
    ensures IsTrimmed(Strip(s))
  {
    var k := LeadingSpaces(s);
    var t := s[k..];
    var b := TrailingSpaces(t);
    var r := Strip(s);
    assert r == t[..|t| - b];
    if |r| > 0 {
      assert r[0] == s[k];
      assert r[|r| - 1] == t[|t| - b - 1];
    }
  }

  lemma StripBounds(s: string)
    ensures var k := LeadingSpaces(s);
      var r := Strip(s);
      && k + |r| <= |s|
      && r == s[k..k + |r|]
      && (forall i :: 0 <= i < k ==> IsSpace(s[i]))
      && (forall i :: k + |r| <= i < |s| ==> IsSpace(s[i]))
      && (|r| == 0 <==> AllSpace(s))
  {
    StripSlice(s);
    StripEmpty(s);
  }

  /** The stripped text is the slice between the leading and the trailing
      white space. */
  lemma StripSlice(s: string)
    ensures var k := LeadingSpaces(s);
      var r := Strip(s);
      && k + |r| <= |s|
      && r == s[k..k + |r|]
      && (forall i :: k + |r| <= i < |s| ==> IsSpace(s[i]))
  {
    var k := LeadingSpaces(s);
    var t := s[k..];
    var r := Strip(s);
    assert forall i :: k + |r| <= i < |s| ==> s[i] == t[i - k];
  }

  /** Only white space strips to nothing. */
  lemma StripEmpty(s: string)
    ensures |Strip(s)| == 0 <==> AllSpace(s)
  {
    StripSlice(s);
  }

  /** `!s.trim()`: the string holds nothing but white space. */
  predicate IsBlank(s: string) {
    Trim(s) == []
  }

  /** A string with no white space at either end is its own trim. */
  lemma TrimOfTrimmed(s: string)
    requires IsTrimmed(s)
    ensures Trim(s) == s
  {
  }

  /** Trims every element of a list, as `parts.map(p => p.trim())` does. */
  function MapTrim(parts: seq<string>): (r: seq<string>)
    ensures |r| == |parts|
    ensures forall i :: 0 <= i < |r| ==> r[i] == Trim(parts[i])
  {
    seq(|parts|, i requires 0 <= i < |parts| => Trim(parts[i]))
  }

  lemma MapTrimCons(parts: seq<string>)
    requires |parts| > 0
    ensures MapTrim(parts) == [Trim(parts[0])] + MapTrim(parts[1..])
  {
  }

  /** The number of occurrences of `c` in `s`. */
  function Count(c: char, s: string): nat {
    if |s| == 0 then 0
    else (if s[0] == c then 1 else 0) + Count(c, s[1..])
  }

  lemma CountZero(c: char, s: string)
    ensures Count(c, s) == 0 <==> c !in s
  {
    if |s| > 0 {
      CountZero(c, s[1..]);
      assert s == [s[0]] + s[1..];
    }
  }

  /** `s.split(sep)` for a one-character separator: the pieces between
      separators, in order, possibly empty. */
  function Split(s: string, sep: char): (r: seq<string>)
    ensures |r| == Count(sep, s) + 1
    ensures forall i :: 0 <= i < |r| ==> sep !in r[i]
  {
    if |s| == 0 then [[]]
    else
      var rest := Split(s[1..], sep);
      if s[0] == sep then [[]] + rest
      else [[s[0]] + rest[0]] + rest[1..]
  }

  /** `parts.join(sep)`; the empty list joins to the empty string. */
  function JoinWith(sep: string, parts: seq<string>): string {
    if |parts| == 0 then []
    else if |parts| == 1 then parts[0]
    else parts[0] + sep + JoinWith(sep, parts[1..])
  }

  /** Joining the pieces of a split with the separator gives back the string. */
  lemma {:induction false} JoinSplit(s: string, sep: char)
    ensures JoinWith([sep], Split(s, sep)) == s
  {
    if |s| > 0 {
      JoinSplit(s[1..], sep);
      var rest := Split(s[1..], sep);
      if s[0] == sep {
        assert Split(s, sep) == [[]] + rest;
        assert ([[]] + rest)[1..] == rest;
      } else {
        var r := Split(s, sep);
        assert r == [[s[0]] + rest[0]] + rest[1..];
        if |rest| == 1 {
          assert JoinWith([sep], rest) == rest[0];
        } else {
          assert r[1..] == rest[1..];
          assert JoinWith([sep], rest) == rest[0] + [sep] + JoinWith([sep], rest[1..]);
        }
      }
    }
  }

  /** A piece free of the separator splits off cleanly at the separator that follows it. */
  lemma {:induction false} SplitAfterPiece(p: string, t: string, sep: char)
    requires sep !in p
    ensures Split(p + [sep] + t, sep) == [p] + Split(t, sep)
  {
    if |p| == 0 {
      assert p + [sep] + t == [sep] + t;
      assert ([sep] + t)[1..] == t;
    } else {
      SplitAfterPiece(p[1..], t, sep);
      assert (p + [sep] + t)[1..] == p[1..] + [sep] + t;
      assert [p[0]] + p[1..] == p;
    }
  }

  /** A string free of the separator is a single piece. */
  lemma {:induction false} SplitNoSeparator(p: string, sep: char)
    requires sep !in p
    ensures Split(p, sep) == [p]
  {
    if |p| > 0 {
      SplitNoSeparator(p[1..], sep);
      assert [p[0]] + p[1..] == p;
    }
  }

  /** Splitting a join of separator-free pieces gives back the pieces. */
  lemma {:induction false} SplitJoin(parts: seq<string>, sep: char)
    requires |parts| >= 1
    requires forall i :: 0 <= i < |parts| ==> sep !in parts[i]
    ensures Split(JoinWith([sep], parts), sep) == parts
  {
    if |parts| == 1 {
      SplitNoSeparator(parts[0], sep);
    } else {
      SplitJoin(parts[1..], sep);
      SplitAfterPiece(parts[0], JoinWith([sep], parts[1..]), sep);
      assert [parts[0]] + parts[1..] == parts;
    }
  }

  /** The text of `s` before the first `sep`, or all of `s`. */
  function Before(s: string, sep: char): (r: string)
    ensures |r| <= |s| && r == s[..|r|]
    ensures sep !in r
    ensures |r| < |s| ==> s[|r|] == sep
  {
    if |s| == 0 || s[0] == sep then [] else [s[0]] + Before(s[1..], sep)
  }

  /** The first piece of a split is the text before the first separator. */
  lemma {:induction false} SplitFirst(s: string, sep: char)
    ensures Split(s, sep)[0] == Before(s, sep)
  {
    if |s| > 0 && s[0] != sep {
      SplitFirst(s[1..], sep);
    }
  }

  /** `s.replace(/c/g, rep)` for a single character `c`. */
  function ReplaceChar(s: string, c: char, rep: string): (r: string)
    ensures |r| == |s| + (|rep| - 1) * Count(c, s)
    ensures c !in rep ==> c !in r
  {
    if |s| == 0 then []
    else
      var head := if s[0] == c then rep else [s[0]];
      var rest := ReplaceChar(s[1..], c, rep);
      assert s == [s[0]] + s[1..];
      assert (|rep| - 1) * Count(c, s) == |head| - 1 + (|rep| - 1) * Count(c, s[1..]);
      head + rest
  }

  /** Replacing every `c` is splitting on `c` and joining with the replacement. */
  lemma {:induction false} ReplaceCharIsSplitJoin(s: string, c: char, rep: string)
    ensures ReplaceChar(s, c, rep) == JoinWith(rep, Split(s, c))
  {
    if |s| > 0 {
      ReplaceCharIsSplitJoin(s[1..], c, rep);
      var rest := Split(s[1..], c);
      if s[0] == c {
        assert Split(s, c) == [[]] + rest;
        assert ([[]] + rest)[1..] == rest;
      } else {
        var r := Split(s, c);
        assert r == [[s[0]] + rest[0]] + rest[1..];
        if |rest| > 1 {
          assert r[1..] == rest[1..];
        }
      }
    }
  }
}

=== FILE: wrappers.dfy ===
/** Failure-carrying values shared by every module of the model. */
module Wrappers {

  /** A value that may be absent: JavaScript's `undefined` (a missing key, an
      out-of-range index, `NaN` from a failed number parse). */
  datatype Option<+T> = None | Some(value: T) {

    /** The value, or `default` when absent. */
    function GetOr(default: T): T {
      match this
      case Some(v) => v
      case None => default
    }

    /** The value as a one-element list, or the empty list. */
    function ToSeq(): (r: seq<T>)
      ensures |r| <= 1
      ensures Some? <==> |r| == 1
      ensures Some? ==> r[0] == value
    {
      match this
      case Some(v) => [v]
      case None => []
    }
  }

  /** Either a value or an error, used for every place the source throws or
      answers with an error status. */
  datatype Result<+R, +E> = Success(value: R) | Failure(error: E)
}
